=== FILE: README.md ===
# groovyclient wire protocol, in Dafny

This project models the Ruby client of GroovyServ (`src/main/bin/groovyclient.rb`),
a thin client for a long-lived Groovy daemon. After connecting, the client:

- sends a handshake of `Cwd`, `Arg` and `Cookie` header lines, ended by a blank line;
- waits in a loop on the socket and stdin together;
- relays each reply frame's body from the daemon to stdout (channel `o`) or stderr (channel `e`);
- forwards stdin to the daemon in data frames of at most 512 bytes, with `Size: 0` at the end of stdin;
- exits with the daemon's `Status`, or with 1 when an exception reaches the top-level `rescue`.

Modules:

- `Options`: the `Option` type. Ruby's `nil` is `None`.
- `RubyText`: the Ruby string operations the client relies on:
  - `puts`, which adds a newline unless one is already there;
  - `String#to_i`, written out as Ruby's parser: leading white space, one sign, an optional `0d` prefix, and digits with single underscores between them;
  - `nil.to_i`;
  - decimal rendering.
- `HeaderCodec`: `read_headers`, covering:
  - `IO#gets`;
  - the regular expression `/([A-Za-z]*): (.*)/` with its leftmost, greedy match;
  - `headers[$1] = $2`, where a line that does not match stores `nil => nil`;
  - the loop up to the blank line.
- `Frames`: the bytes on the wire:
  - what the client writes: the handshake, the stdin data frames and the EOF frame;
  - what the daemon writes: output frames and status frames. These are encoded here so that the client's decoder can be proved against them.
- `Session`: the `session` loop, covering:
  - `IO.select` and the `.each` over its result;
  - the socket branch: `Status`, `read(Size)`, `break`, and routing by channel;
  - the stdin branch: `read_nonblock(512)` and `EOFError`;
  - `exit`, and the `rescue` that turns an exception into exit status 1.

A session is the state of the byte streams around the client:

- `inbound`: everything the daemon will still send, with the end of the stream after it;
- `stdin`: the local input not yet read;
- `stdout`, `stderr` and `outbound`: what the client has written so far.

Each character of a string stands for one octet. The timing of the outside world is a parameter. A `Wakeup` says which sources `IO.select` reports readable, and how many bytes the stdin pipe holds at that moment. `Wake` is one iteration of `while true`, and `Run` is the loop over a sequence of wakeups.

Several behaviours of the code are not what a reader of the protocol might expect. The model follows the code:

- **Unmatched header lines.** A header line that does not match the pattern is stored as `nil => nil`, because `$1` and `$2` are both `nil` after a failed match. It is not stored as an empty name mapped to the raw line (`HeaderCodec.DecodeNilEntry`).
- **One source per wakeup.** `IO.select(...).each` iterates over the three result arrays (readable, writable, errored). It looks only at `ins[0]` of each, and the last two arrays are empty. So one wakeup serves one source: the socket when it is ready, and stdin only when the socket is not (`Session.WakeServesFirstReady`). This is not "both sources are served before the next wait".
- **Repeated EOF frames.** Once stdin is at its end, every later stdin wakeup raises `EOFError` again and writes `Size: 0\n\n` again. The empty frame is not sent only once (`Session.StdinEofFrames`).
- **A closed socket does not end the session.** `break` leaves only the `.each`, not the `while`. A body cut short by the socket closing is relayed as far as it arrived, and the loop goes on (`Session.TruncatedBodyKeepsLooping`). After the socket has closed, a socket wakeup reads an empty block and an empty body and changes nothing, so the client keeps looping (`Session.SocketEofSpins`). In particular, a closed socket is neither fatal (exit 1) nor a clean exit.
- **Malformed numbers.** A missing `Size` reads as `nil.to_i`, which is 0. A non-numeric `Size` also reads as 0. Neither is an error. `IO#read` raises only for a `Size` that is negative or does not fit a C `long`, which ends with exit status 1 (`Session.UnreadableSizeRaises`).
- **Integer widths.** `to_i` returns an unbounded Integer, but `exit` converts it to a C `int` and `read` converts it to a C `long`. A value that does not fit raises RangeError, which the `rescue` turns into exit status 1. So a `Status` outside the 32-bit range ends the process with 1, not with the low byte of the status (`Session.StatusEndsSession`). A 64-bit platform is assumed.

## Model

| member | source | states |
|---|---|---|
| RubyText.Puts | src/main/bin/groovyclient.rb:49-56 | what `puts` writes ends in a newline: the text itself when it already ends in one, the text plus a newline otherwise |
| RubyText.NatToDecimal | src/main/bin/groovyclient.rb:80 | the length written in a data frame is a non-empty run of digits with no leading zero; read back by `RubyText.ToIOfNatToDecimal` |
| RubyText.IntToDecimal | src/main/bin/groovyclient.rb:63 | the decimal form of a status, as a daemon writes it; `RubyText.ToIReadsLeadingDecimal` proves that `to_i` inverts it for every integer |
| RubyText.ToI | src/main/bin/groovyclient.rb:63 | `String#to_i` as Ruby's parser (white space, one sign, a `0d` prefix, digits with single underscores); its meaning is stated by `RubyText.ToIReadsLeadingDecimal` and `RubyText.ToIWithoutDigits` |
| RubyText.ToIReadsLeadingDecimal | src/main/bin/groovyclient.rb:63 | `to_i` of a decimal integer (any sign) gives back that integer, whatever follows it, unless it continues the number: a digit, a `_`, or the `d` of a `0d` prefix after a lone `0` |
| RubyText.ToIOfNatToDecimal | src/main/bin/groovyclient.rb:65 | the `Size` a frame announces in decimal reads back as the same length |
| RubyText.ToIWithoutDigits | src/main/bin/groovyclient.rb:65 | a value with no digit at all reads as 0, so a non-numeric `Size` asks for an empty body |
| HeaderCodec.Gets | src/main/bin/groovyclient.rb:40 | `gets` is nil exactly at the end of the stream; otherwise it splits off one line with a newline only at its end, which is missing only when the stream ends first |
| HeaderCodec.GetsTakesOneLine | src/main/bin/groovyclient.rb:40 | a complete line at the head of the stream is exactly what `gets` returns, and the rest is left |
| HeaderCodec.UntilNewline | src/main/bin/groovyclient.rb:42 | the `(.*)` capture is a prefix without a newline that stops at the first newline or at the end |
| HeaderCodec.MatchLine | src/main/bin/groovyclient.rb:42 | `/([A-Za-z]*): (.*)/ =~ line`, giving `$1` and `$2` or a failed match; `HeaderCodec.MatchLineIsLeftmostMatch` proves it is the leftmost match of an independent definition of the pattern |
| HeaderCodec.Entry | src/main/bin/groovyclient.rb:43 | the entry `headers[$1] = $2` stores for one line, `nil => nil` when the match failed; stated by `HeaderCodec.DecodeNilEntry` and `HeaderCodec.MatchNamedLine` |
| HeaderCodec.Decode | src/main/bin/groovyclient.rb:43 | the map the loop builds, line by line, with later lines overwriting; stated by `HeaderCodec.DecodeHasKey`, `HeaderCodec.DecodeLastWins` and `HeaderCodec.DecodeNilEntry` |
| HeaderCodec.ReadBlock | src/main/bin/groovyclient.rb:40 | the lines the `while` takes before the blank line, and the stream after it; stated by `HeaderCodec.ReadBlockConsumesThroughBlankLine` and `HeaderCodec.ReadBlockOfJoin` |
| HeaderCodec.ReadHeaders | src/main/bin/groovyclient.rb:38-46 | `read_headers`: the decoded block and the stream left for the body; proved equal to the loop by `HeaderCodec.ReadHeadersLoop`, and inverse to the encoder by `HeaderCodec.ReadHeadersOfJoin` |
| HeaderCodec.MatchLineIsLeftmostMatch | src/main/bin/groovyclient.rb:42 | the match fails exactly when no `: ` occurs in the line; otherwise it is the leftmost match, and `$1` is the longest run of letters before the first `: ` |
| HeaderCodec.MatchNamedLine | src/main/bin/groovyclient.rb:42 | a line `name: value` with a letters-only name yields exactly that name and value |
| HeaderCodec.ReadBlockConsumesThroughBlankLine | src/main/bin/groovyclient.rb:40 | the block loop returns whole lines, none blank, in stream order; it stops after the first blank line, or at the end of the stream with everything read |
| HeaderCodec.ReadBlockOfJoin | src/main/bin/groovyclient.rb:40 | header lines followed by a blank line are read back as exactly those lines, and the stream is left right after the blank line |
| HeaderCodec.ReadHeadersLoop | src/main/bin/groovyclient.rb:38-46 | the `while gets` loop that stores each entry as it goes gives the same headers and leaves the same stream as the recursive definition of a block |
| HeaderCodec.ReadHeadersOfJoin | src/main/bin/groovyclient.rb:38-46 | encoding header lines as a block and reading the block back gives those lines' entries and the stream after the block |
| HeaderCodec.GetDecodeLast | src/main/bin/groovyclient.rb:43 | one more line either sets a name, and its value becomes the lookup, or leaves that name's lookup as it was |
| HeaderCodec.DecodeHasKey | src/main/bin/groovyclient.rb:43 | a name is present in the headers exactly when some line of the block sets it |
| HeaderCodec.DecodeLastWins | src/main/bin/groovyclient.rb:43 | when a name is set more than once, the last line that sets it wins |
| HeaderCodec.DecodeNilEntry | src/main/bin/groovyclient.rb:42-43 | a nil key is present exactly when some line fails to match, and a key is nil exactly when its value is nil |
| HeaderCodec.UnmatchedLineIgnored | src/main/bin/groovyclient.rb:42-43 | a line that does not match changes no named lookup |
| Frames.ArgLinesJoin | src/main/bin/groovyclient.rb:50-52 | the `Arg` lines are one `puts` per argument, in argument order |
| Frames.ArgLines | src/main/bin/groovyclient.rb:50-52 | one `s.puts("Arg: " + it)` per argument; stated by `Frames.ArgLinesJoin` |
| Frames.Handshake | src/main/bin/groovyclient.rb:49-56 | the bytes `session` writes before its loop; `Frames.HandshakeIsOneBlock` proves that `read_headers` (the client's own decoder, standing in for the daemon's) reads it back as exactly its `Cwd`, `Arg` and `Cookie` lines |
| Frames.HandshakeIsBlock | src/main/bin/groovyclient.rb:49-56 | the handshake is its header lines followed by the blank line that `puts("")` writes |
| Frames.HandshakeLinesShape | src/main/bin/groovyclient.rb:49-56 | the handshake has the `Cwd` line first, then one `Arg` line per argument in order, then the `Cookie` line |
| Frames.HandshakeLinesMatch | src/main/bin/groovyclient.rb:49-56 | every handshake line is a header line that decodes to its name and value; the cookie decodes without the key file's final newline |
| Frames.CookieLine | src/main/bin/groovyclient.rb:54 | a cookie that ends in a newline gets no second newline from `puts`, and its line decodes to the cookie without that final newline |
| Frames.HandshakeIsOneBlock | src/main/bin/groovyclient.rb:49-56 | `read_headers` (the client's own decoder, standing in for the daemon's) run on the handshake reads exactly its lines and stops at the blank line, so the bytes after the handshake are untouched |
| Frames.UntilNewlineOfValue | src/main/bin/groovyclient.rb:42 | a value without a newline is captured whole; a value ending in its only newline is captured without it |
| Frames.EofFrameIsEmptyDataFrame | src/main/bin/groovyclient.rb:78-80 | the EOF frame is the data frame of an empty chunk |
| Frames.DataFrame | src/main/bin/groovyclient.rb:80-81 | `"Size: #{data.length}\n\n"` followed by the chunk; `Frames.DataFrameDecodes` proves it decodes back to the chunk's length and the chunk, and `Frames.EofFrameIsEmptyDataFrame` that the EOF frame is the empty chunk's |
| Frames.NamedLineDecodes | src/main/bin/groovyclient.rb:38-46 | a one-line block decodes to that single entry and leaves the stream after the blank line |
| Frames.DataFrameDecodes | src/main/bin/groovyclient.rb:80-81 | a stdin data frame read by `read_headers` has just `Size`, whose `to_i` is the chunk length, and the chunk follows it |
| Frames.OutputFrameDecodes | src/main/bin/groovyclient.rb:61-65 | a daemon output frame decodes to its `Channel` and `Size`, the `Size` reads back as the body length, and the body follows |
| Frames.StatusFrameDecodes | src/main/bin/groovyclient.rb:61-63 | a status frame decodes to just `Status`, whose `to_i` is the status sent, and nothing of the stream after it is consumed |
| Session.Read | src/main/bin/groovyclient.rb:65-66 | `read(n)` raises exactly when n is negative or does not fit a C `long`, and is nil exactly for a positive n at the end of the stream; otherwise it splits the stream, and returns fewer than n bytes only when the stream runs out |
| Session.ServiceSocket | src/main/bin/groovyclient.rb:60-73 | the socket branch of the `.each` body: `Status` then `exit`, otherwise `read(Size)` and routing; stated by `Session.SocketServiceFrame` and the per-frame lemmas `Session.StatusEndsSession`, `Session.OutputFrameRouted`, `Session.AbsentSizeReadsNothing`, `Session.UnreadableSizeRaises` and `Session.TruncatedBodyKeepsLooping` |
| Session.SocketServiceFrame | src/main/bin/groovyclient.rb:60-73 | the socket branch never touches stdin or what goes to the daemon; it only consumes the socket and extends at most one of stdout and stderr, and only when the loop goes on; a `break` happens only with the socket at its end |
| Session.ServiceStdin | src/main/bin/groovyclient.rb:74-82 | the stdin branch takes a prefix of stdin as long as it may: 512 bytes, or what the pipe holds, or the rest of stdin, whichever is least; it sends that prefix as one data frame; it takes nothing exactly when stdin is at its end, and then the frame is the empty one; the socket and the local output are untouched |
| Session.ReadyOf | src/main/bin/groovyclient.rb:59 | the readable list holds exactly the watched sources that are ready, with the socket first whenever it is ready |
| Session.SelectResult | src/main/bin/groovyclient.rb:59 | `IO.select([s, $stdin])`: the readable sources, then empty writable and errored lists; with `Session.WakeServesFirstReady` this fixes which branch runs |
| Session.ServiceGroup | src/main/bin/groovyclient.rb:60-83 | the `.each` body for one of the three lists: only `ins[0]` is looked at; stated by `Session.WakeServesFirstReady` |
| Session.EachPass | src/main/bin/groovyclient.rb:59-84 | `.each` over the select result, left early by `break`, `exit` or an exception; stated by `Session.WakeServesFirstReady` |
| Session.Wake | src/main/bin/groovyclient.rb:58-84 | one iteration of `while true`; what it does is stated by `Session.WakeServesFirstReady`, `Session.SocketFirst` and the per-frame lemmas |
| Session.Run | src/main/bin/groovyclient.rb:58-85 | the `while true` loop over a sequence of wakeups, ending at the first `exit` or exception; stated by `Session.RunAppend`, `Session.RunRelaysReplies`, `Session.RunEndsAtStatus` and `Session.RunUploadsStdin` |
| Session.ExitStatus | src/main/bin/groovyclient.rb:96-99 | the process status is a byte: the low 8 bits of the status passed to `exit` (line 63), or 1 after the `rescue` |
| Session.WakeExitsWithInt | src/main/bin/groovyclient.rb:63 | a wakeup that ends by `exit` has a status that fits a C `int`: a wider `Status` raises instead |
| Session.RunExitsWithInt | src/main/bin/groovyclient.rb:58-85 | however many wakeups a session takes, when it ends by `exit` the status fits a C `int` |
| Session.WakeServesFirstReady | src/main/bin/groovyclient.rb:58-84 | a wakeup serves the socket whenever it is ready, stdin only when the socket is not, and nothing when neither is |
| Session.SocketFirst | src/main/bin/groovyclient.rb:59-74 | while the socket is ready, stdin is neither read nor forwarded |
| Session.StatusEndsSession | src/main/bin/groovyclient.rb:61-64 | any block that holds a `Status`, whatever else it holds, ends the session right after that block, and no body is read: with the `to_i` of the status when it fits a C `int`, and by the `rescue` of the RangeError (exit status 1) when it does not |
| Session.StatusBesideOutputHeaders | src/main/bin/groovyclient.rb:61-65 | a `Status` in the same block as `Channel` and `Size` still ends the session, and the announced body stays unread (for example `Channel: o`, `Size: 2`, `Status: 3`, then `ab`, exits with 3 and leaves `ab`) |
| Session.StatusFrameEndsSession | src/main/bin/groovyclient.rb:61-64 | the status frame a daemon writes for a code ends the session, consuming only that frame: with the status sent when it fits a C `int`, and by the `rescue` of the RangeError (exit status 1) when it does not |
| Session.OutputFrameRouted | src/main/bin/groovyclient.rb:65-73 | an output frame's body goes whole to stdout on channel `o`, to stderr on `e`, and nowhere otherwise; the socket is left at the next frame |
| Session.AbsentSizeReadsNothing | src/main/bin/groovyclient.rb:62-73 | any block without `Status` and `Size` reads an empty body (`nil.to_i` is 0): only the block is consumed, the following bytes stay on the socket, and the outputs are unchanged whatever the `Channel` |
| Session.MissingSizeReadsNothing | src/main/bin/groovyclient.rb:65 | the block made of one `Channel` line reads an empty body; the following bytes stay on the socket, and the output is unchanged |
| Session.UnreadableSizeRaises | src/main/bin/groovyclient.rb:62-65 | any block without `Status` whose `Size` reads (by `to_i`) as negative or too wide for a C `long` makes `read` raise, and the process exits with status 1 |
| Session.UnreadableSizeFails | src/main/bin/groovyclient.rb:65 | the block made of one `Size: <to_s of n>` line, for n negative or too wide for a C `long`, makes `read` raise, and the process exits with status 1 |
| Session.SocketEofChangesNothing | src/main/bin/groovyclient.rb:61-68 | once the socket has closed, a socket wakeup leaves the whole session as it was |
| Session.TruncatedBodyKeepsLooping | src/main/bin/groovyclient.rb:65-73 | a body cut short by the socket closing is relayed as far as it arrived, and the loop goes on |
| Session.StdinEofFrameEveryTime | src/main/bin/groovyclient.rb:76-78 | at the end of stdin, a stdin wakeup sends the empty frame and changes nothing else |
| Session.RunAppend | src/main/bin/groovyclient.rb:58-85 | running two sequences of wakeups one after the other is running their concatenation; an ended session stays ended |
| Session.SocketEofSpins | src/main/bin/groovyclient.rb:58-68 | after the socket has closed, any number of socket wakeups leave the session running and unchanged |
| Session.StdinEofFrames | src/main/bin/groovyclient.rb:74-78 | at the end of stdin, n stdin wakeups send the empty frame n times |
| Session.RunRelaysReplies | src/main/bin/groovyclient.rb:58-73 | a stream of output frames, one per socket wakeup, appends the `o` bodies to stdout and the `e` bodies to stderr, each in the order sent, and leaves the socket after the last frame |
| Session.RunEndsAtStatus | src/main/bin/groovyclient.rb:58-64 | output frames followed by a status frame relay every body and then end the session, whatever wakeups come later: with that status when it fits a C `int`, and with the `rescue` otherwise |
| Session.RunUploadsStdin | src/main/bin/groovyclient.rb:74-82 | stdin wakeups upload stdin in order, as one chunk per wakeup, each at most 512 bytes and at most what the pipe held, and each as long as those bounds and the rest of stdin allow; the chunks join up to the part consumed; a chunk is empty exactly when the earlier chunks already cover stdin; the socket and the local output are untouched |
| Session.OutputThenExit | src/main/bin/groovyclient.rb:48-85 | after the handshake, a daemon that writes to stdout, then stderr, then a status produces exactly those outputs and ends the process: with the low byte of the status when it fits a C `int`, and with 1 otherwise |
| Session.PipedInput | src/main/bin/groovyclient.rb:48-85 | a short piped input goes out after the handshake as one data frame, followed by one empty frame per later stdin wakeup |

## Left out

- Connecting and starting the daemon (`mk_dir`, `start_server`, the `ECONNREFUSED` retry loop, lines 21-36 and 90-95): these are operating-system and process effects. The model starts from an open connection.
- `Signal.trap(:INT)` (line 88) and the `ensure` that closes the socket (lines 100-103): a signal arrives at an arbitrary time, and closing changes no byte the model tracks.
- Blocking inside `IO.select`, and when data arrives: the sources `IO.select` reports and the bytes the stdin pipe holds are the `Wakeup` parameters. `IO.select` never returns an empty readable set. A wakeup with neither source ready is still allowed, and it changes nothing.
- `read_nonblock` raising `EAGAIN` (a wakeup with nothing in the pipe) is not modelled. `avail` is at least 1, because `select` reported stdin readable. If it were raised, the `rescue` would turn it into exit status 1, like the other exceptions.
- Reading the key file (lines 53-55): its contents are the `cookie` parameter. A missing file, which would raise and exit 1, is not modelled.
- `Dir::getwd` and `ARGV` are the `cwd` and `args` parameters.
- Write errors on the socket, stdout or stderr: each write is modelled as appending to a stream.
- `chomp line` (line 41) is treated as a no-op. On Ruby 1.8, `Kernel#chomp` works on `$_` and leaves `line` unchanged, and the regular expression's `(.*)` stops before the newline anyway. Later Ruby versions have no such method outside `-n`/`-p`, so there the call would raise. That behaviour is not modelled.
- `Frames.HandshakeIsOneBlock` and `Frames.HandshakeLinesMatch`: these assume the working directory and the arguments contain no newline, and that the cookie has a newline at most at its end. A newline anywhere else splits the value into more lines, which `read_headers` reads as separate headers.
- `Session.SocketServiceFrame`: states only the frame of the socket branch. What the branch does for each kind of frame is stated by `StatusFrameEndsSession`, `OutputFrameRouted`, `MissingSizeReadsNothing`, `UnreadableSizeFails` and `TruncatedBodyKeepsLooping`.
- `Session.OutputFrameRouted`, `Session.TruncatedBodyKeepsLooping`, `Session.RunRelaysReplies`, `Session.RunEndsAtStatus` and `Session.OutputThenExit` assume every body length fits a C `long`. A `Size` of 2^63 or more makes `read` raise instead, which `Session.UnreadableSizeRaises` states.
- Allocating the buffer for a huge `Size` is not modelled. Below the `long` limit, `read` is modelled as waiting for the bytes, though Ruby could fail to allocate a buffer that large.

=== FILE: frames.dfy ===
/**
 * The byte frames of the wire protocol. The client writes the handshake and
 * the stdin data frames; the daemon's replies (output and status frames) are
 * written here as a reference encoder, the counterpart the client's decoder is
 * proved against.
 */
module Frames {
  import opened Options
  import opened RubyText
  import opened HeaderCodec

  // ---------------------------------------------------------------------------
  // Client to daemon

  /** One `s.puts("Arg: " + it)` per argument, in order. */
  function ArgLines(args: seq<string>): string {
    if |args| == 0 then "" else Puts("Arg: " + args[0]) + ArgLines(args[1..])
  }

  /**
   * What `session` writes first: `Cwd`, one `Arg` per argument, `Cookie`
   * carrying the key file's contents, then the blank line `puts("")` writes.
   */
  function Handshake(cwd: string, args: seq<string>, cookie: string): string {
    Puts("Cwd: " + cwd) + ArgLines(args) + Puts("Cookie: " + cookie) + Puts("")
  }

  /** `read_nonblock(512)` asks for at most this many bytes. */
  const ChunkSize: nat := 512

  /** Written when stdin is at its end. */
  const EofFrame: string := "Size: 0\n\n"

  /** `"Size: #{data.length}\n\n"` followed by the chunk itself. */
  function DataFrame(data: string): string {
    "Size: " + NatToDecimal(|data|) + "\n" + "\n" + data
  }

  // ---------------------------------------------------------------------------
  // Daemon to client

  datatype Reply = Output(channel: string, data: string) | Status(code: int)

  /** The header block that announces an output body of n bytes. */
  function OutputHeader(channel: string, n: nat): string {
    "Channel: " + channel + "\n" + "Size: " + NatToDecimal(n) + "\n" + "\n"
  }

  function ReplyFrame(r: Reply): string {
    match r
    case Output(channel, data) => OutputHeader(channel, |data|) + data
    case Status(code) => "Status: " + IntToDecimal(code) + "\n" + "\n"
  }

  function ReplyStream(rs: seq<Reply>): string {
    if |rs| == 0 then "" else ReplyFrame(rs[0]) + ReplyStream(rs[1..])
  }

  // ---------------------------------------------------------------------------
  // Properties

  /** The argument lines as separate header lines. */
  function ArgLineSeq(args: seq<string>): seq<string> {
    if |args| == 0 then [] else [Puts("Arg: " + args[0])] + ArgLineSeq(args[1..])
  }

  lemma {:induction false} ArgLinesJoin(args: seq<string>)
    ensures ArgLines(args) == Join(ArgLineSeq(args))
    ensures |ArgLineSeq(args)| == |args|
    ensures forall i :: 0 <= i < |args| ==> ArgLineSeq(args)[i] == Puts("Arg: " + args[i])
    decreases |args|
  {
    if |args| > 0 {
      ArgLinesJoin(args[1..]);
    }
  }

  /** A value with a newline at most at its end is its own capture, or that plus the newline. */
  lemma UntilNewlineOfValue(v: string)
    requires NoNewline(v) || (EndsLine(v) && NoNewline(v[..|v| - 1]))
    ensures NoNewline(v) ==> UntilNewline(v) == v
    ensures !NoNewline(v) ==> UntilNewline(v) + "\n" == v
  {
    if NoNewline(v) {
      UntilNewlineWhole(v);
    } else {
      UntilNewlineDropsLast(v);
    }
  }

  lemma {:induction false} UntilNewlineWhole(v: string)
    requires NoNewline(v)
    ensures UntilNewline(v) == v
    decreases |v|
  {
    if |v| > 0 {
      UntilNewlineWhole(v[1..]);
      assert [v[0]] + v[1..] == v;
    }
  }

  lemma UntilNewlineDropsLast(v: string)
    requires EndsLine(v) && NoNewline(v[..|v| - 1])
    ensures UntilNewline(v) + "\n" == v
  {
    var w := v[..|v| - 1];
    assert v == w + ['\n'];
    UntilNewlineStopsAtNewline(w);
  }

  /** `(.*)` stops at the first newline. */
  lemma {:induction false} UntilNewlineStopsAtNewline(w: string)
    requires NoNewline(w)
    ensures UntilNewline(w + ['\n']) == w
    decreases |w|
  {
    var t := w + ['\n'];
    if |w| > 0 {
      assert t[1..] == w[1..] + ['\n'];
      UntilNewlineStopsAtNewline(w[1..]);
      assert [w[0]] + w[1..] == w;
    }
  }

  /**
   * `puts` of a `name: value` line, written as the literal prefix `name: `
   * and the value: u is the value without the newline it may end with, and
   * the line written is a header line that matches as (name, u).
   */
  lemma PutsNamedLine(name: string, prefix: string, v: string, u: string)
    requires |name| > 0 && AllLetters(name) && prefix == name + ": "
    requires NoNewline(u) && (v == u || v == u + "\n")
    ensures Puts(prefix + v) == name + ": " + u + "\n"
    ensures MatchLine(Puts(prefix + v)) == Some((name, u))
    ensures IsHeaderLine(Puts(prefix + v))
  {
    if v != u {
      assert prefix + v == name + ": " + u + "\n";
    }
    MatchNamedLine(name, u);
  }

  /** The lines of the handshake block, blank line excluded. */
  function HandshakeLines(cwd: string, args: seq<string>, cookie: string): seq<string> {
    [Puts("Cwd: " + cwd)] + ArgLineSeq(args) + [Puts("Cookie: " + cookie)]
  }

  lemma HandshakeIsBlock(cwd: string, args: seq<string>, cookie: string)
    ensures Handshake(cwd, args, cookie) == Join(HandshakeLines(cwd, args, cookie)) + "\n"
  {
    var first := [Puts("Cwd: " + cwd)];
    var last := [Puts("Cookie: " + cookie)];
    ArgLinesJoin(args);
    JoinAppend(first + ArgLineSeq(args), last);
    JoinAppend(first, ArgLineSeq(args));
    assert Join(first) == Puts("Cwd: " + cwd);
    assert Join(last) == Puts("Cookie: " + cookie);
  }

  /**
   * The handshake is one header block: reading a block off a stream that
   * starts with it gives exactly its lines and leaves whatever follows
   * untouched. Nothing is escaped, so this holds when the values carry no
   * newline of their own (the cookie may end with one, which `puts` then does
   * not double).
   */
  lemma HandshakeIsOneBlock(cwd: string, args: seq<string>, cookie: string, rest: string, s: string)
    requires NoNewline(cwd)
    requires forall i :: 0 <= i < |args| ==> NoNewline(args[i])
    requires NoNewline(cookie) || (EndsLine(cookie) && NoNewline(cookie[..|cookie| - 1]))
    requires s == Handshake(cwd, args, cookie) + rest
    ensures ReadBlock(s).0 == HandshakeLines(cwd, args, cookie)
    ensures ReadBlock(s).1 == rest
  {
    var ls := HandshakeLines(cwd, args, cookie);
    HandshakeLinesMatch(cwd, args, cookie);
    HandshakeIsBlock(cwd, args, cookie);
    ReadBlockOfJoin(ls, rest);
  }

  lemma HandshakeLinesShape(cwd: string, args: seq<string>, cookie: string)
    ensures |HandshakeLines(cwd, args, cookie)| == |args| + 2
    ensures HandshakeLines(cwd, args, cookie)[0] == Puts("Cwd: " + cwd)
    ensures forall i :: 0 <= i < |args| ==> HandshakeLines(cwd, args, cookie)[i + 1] == Puts("Arg: " + args[i])
    ensures HandshakeLines(cwd, args, cookie)[|args| + 1] == Puts("Cookie: " + cookie)
  {
    var ls := HandshakeLines(cwd, args, cookie);
    var mid := ArgLineSeq(args);
    ArgLinesJoin(args);
    forall i | 0 <= i < |args| ensures ls[i + 1] == Puts("Arg: " + args[i]) {
      assert ls[i + 1] == mid[i];
    }
    assert ls[|args| + 1] == Puts("Cookie: " + cookie);
  }

  /**
   * Line by line the handshake block is `Cwd`, then one `Arg` per argument in
   * the original order, then `Cookie`, each carrying its value unchanged (the
   * cookie without the newline it may end with).
   */
  lemma HandshakeLinesMatch(cwd: string, args: seq<string>, cookie: string)
    requires NoNewline(cwd)
    requires forall i :: 0 <= i < |args| ==> NoNewline(args[i])
    requires NoNewline(cookie) || (EndsLine(cookie) && NoNewline(cookie[..|cookie| - 1]))
    ensures |HandshakeLines(cwd, args, cookie)| == |args| + 2
    ensures forall j :: 0 <= j < |args| + 2 ==> IsHeaderLine(HandshakeLines(cwd, args, cookie)[j])
    ensures MatchLine(HandshakeLines(cwd, args, cookie)[0]) == Some(("Cwd", cwd))
    ensures forall i :: 0 <= i < |args| ==>
      MatchLine(HandshakeLines(cwd, args, cookie)[i + 1]) == Some(("Arg", args[i]))
    ensures MatchLine(HandshakeLines(cwd, args, cookie)[|args| + 1]) == Some(("Cookie", UntilNewline(cookie)))
  {
    HandshakeLinesShape(cwd, args, cookie);
    CookieLine(cookie);
    LinesMatch(HandshakeLines(cwd, args, cookie), cwd, args);
  }

  /**
   * The `Cwd` and `Arg` part of HandshakeLinesMatch, for any sequence laid
   * out like the handshake's lines whose last line is a header line.
   */
  lemma LinesMatch(ls: seq<string>, cwd: string, args: seq<string>)
    requires NoNewline(cwd)
    requires forall i :: 0 <= i < |args| ==> NoNewline(args[i])
    requires |ls| == |args| + 2 && ls[0] == Puts("Cwd: " + cwd)
    requires forall i :: 0 <= i < |args| ==> ls[i + 1] == Puts("Arg: " + args[i])
    requires IsHeaderLine(ls[|args| + 1])
    ensures forall j :: 0 <= j < |ls| ==> IsHeaderLine(ls[j])
    ensures MatchLine(ls[0]) == Some(("Cwd", cwd))
    ensures forall i :: 0 <= i < |args| ==> MatchLine(ls[i + 1]) == Some(("Arg", args[i]))
  {
    HandshakeNames();
    NamedLine("Cwd", cwd);
    forall i | 0 <= i < |args|
      ensures IsHeaderLine(ls[i + 1]) && MatchLine(ls[i + 1]) == Some(("Arg", args[i]))
    {
      NamedLine("Arg", args[i]);
    }
    forall j | 0 < j < |ls| - 1 ensures IsHeaderLine(ls[j]) {
      NamedLine("Arg", args[j - 1]);
    }
  }

  /** A `name: value` line written by `puts` is a header line carrying that value. */
  lemma NamedLine(name: string, v: string)
    requires |name| > 0 && AllLetters(name) && NoNewline(v)
    ensures IsHeaderLine(Puts(name + ": " + v)) && MatchLine(Puts(name + ": " + v)) == Some((name, v))
  {
    PutsNamedLine(name, name + ": ", v, v);
  }

  /** The header names the client writes, and the prefixes they give. */
  lemma HandshakeNames()
    ensures |"Cwd"| > 0 && AllLetters("Cwd") && "Cwd" + ": " == "Cwd: "
    ensures |"Arg"| > 0 && AllLetters("Arg") && "Arg" + ": " == "Arg: "
  {
  }

  /** The `Cookie` line carries the key up to its first newline. */
  lemma CookieLine(cookie: string)
    requires NoNewline(cookie) || (EndsLine(cookie) && NoNewline(cookie[..|cookie| - 1]))
    ensures IsHeaderLine(Puts("Cookie: " + cookie))
    ensures MatchLine(Puts("Cookie: " + cookie)) == Some(("Cookie", UntilNewline(cookie)))
  {
    UntilNewlineOfValue(cookie);
    CookieLineAs(cookie, UntilNewline(cookie));
  }

  lemma CookieLineAs(cookie: string, u: string)
    requires NoNewline(u) && (cookie == u || cookie == u + "\n")
    ensures IsHeaderLine(Puts("Cookie: " + cookie))
    ensures MatchLine(Puts("Cookie: " + cookie)) == Some(("Cookie", u))
  {
    PutsNamedLine("Cookie", "Cookie: ", cookie, u);
  }

  /** The EOF frame is the data frame of an empty chunk. */
  lemma EofFrameIsEmptyDataFrame()
    ensures EofFrame == DataFrame("")
  {
    assert NatToDecimal(0) == "0";
  }

  /** A block of one line `name: v`, followed by rest. */
  lemma NamedLineDecodes(name: string, v: string, rest: string, s: string)
    requires |name| > 0 && AllLetters(name) && NoNewline(v)
    requires s == name + ": " + v + "\n" + "\n" + rest
    ensures ReadHeaders(s).0 == map[Some(name) := Some(v)]
    ensures ReadHeaders(s).1 == rest
  {
    var line := name + ": " + v + "\n";
    MatchNamedLine(name, v);
    assert Join([line]) == line;
    assert s == Join([line]) + "\n" + rest;
    ReadHeadersOfJoin([line], rest);
    DecodeOne(line);
  }

  /** A block of two lines `name1: v1`, `name2: v2`, followed by rest. */
  lemma TwoNamedLinesDecode(name1: string, v1: string, name2: string, v2: string, rest: string, s: string)
    requires |name1| > 0 && AllLetters(name1) && NoNewline(v1)
    requires |name2| > 0 && AllLetters(name2) && NoNewline(v2)
    requires s == name1 + ": " + v1 + "\n" + name2 + ": " + v2 + "\n" + "\n" + rest
    ensures ReadHeaders(s).0 == map[Some(name1) := Some(v1), Some(name2) := Some(v2)]
    ensures ReadHeaders(s).1 == rest
  {
    var l1 := name1 + ": " + v1 + "\n";
    var l2 := name2 + ": " + v2 + "\n";
    MatchNamedLine(name1, v1);
    MatchNamedLine(name2, v2);
    TwoLinesSplit(name1, v1, name2, v2, rest);
    JoinTwo(l1, l2);
    ReadHeadersOfJoin([l1, l2], rest);
    DecodeTwo(l1, l2);
  }

  lemma TwoLinesSplit(name1: string, v1: string, name2: string, v2: string, rest: string)
    ensures name1 + ": " + v1 + "\n" + name2 + ": " + v2 + "\n" + "\n" + rest
         == (name1 + ": " + v1 + "\n") + (name2 + ": " + v2 + "\n") + "\n" + rest
  {
  }

  lemma JoinTwo(l1: string, l2: string)
    ensures Join([l1, l2]) == l1 + l2
  {
    assert [l1, l2][1..] == [l2];
    assert Join([l2]) == l2 + "";
    assert l2 + "" == l2;
  }

  /** `Size: ds` then a blank line, for any newline-free ds. */
  lemma SizeBlockDecodes(ds: string, data: string, rest: string, s: string)
    requires NoNewline(ds)
    requires s == "Size: " + ds + "\n" + "\n" + data + rest
    ensures ReadHeaders(s).0 == map[Some("Size") := Some(ds)]
    ensures ReadHeaders(s).1 == data + rest
  {
    assert s == "Size" + ": " + ds + "\n" + "\n" + (data + rest);
    NamedLineDecodes("Size", ds, data + rest, s);
  }

  /**
   * A data frame read back with `read_headers` is the single header `Size`,
   * whose `to_i` is the chunk's length, and the chunk follows unchanged.
   */
  lemma DataFrameDecodes(data: string, rest: string, s: string)
    requires s == DataFrame(data) + rest
    ensures ReadHeaders(s).0 == map[Some("Size") := Some(NatToDecimal(|data|))]
    ensures ReadHeaders(s).1 == data + rest
    ensures ToI(NatToDecimal(|data|)) == |data|
  {
    DecimalHasNoNewline(|data|);
    SizeBlockDecodes(NatToDecimal(|data|), data, rest, s);
    ToIOfNatToDecimal(|data|);
  }

  /** `Channel: ch`, `Size: ds`, then a blank line, for newline-free ch and ds. */
  lemma OutputBlockDecodes(ch: string, ds: string, data: string, rest: string, s: string)
    requires NoNewline(ch) && NoNewline(ds)
    requires s == "Channel: " + ch + "\n" + "Size: " + ds + "\n" + "\n" + data + rest
    ensures ReadHeaders(s).0 == map[Some("Channel") := Some(ch), Some("Size") := Some(ds)]
    ensures ReadHeaders(s).1 == data + rest
  {
    assert s == "Channel" + ": " + ch + "\n" + "Size" + ": " + ds + "\n" + "\n" + (data + rest);
    TwoNamedLinesDecode("Channel", ch, "Size", ds, data + rest, s);
  }

  /**
   * The client's decoder inverts the daemon's encoder for output frames: the
   * block holds exactly the `Channel` and a `Size` that reads back as the
   * body's length, and the stream after it is the body followed by the rest.
   */
  lemma OutputFrameDecodes(channel: string, data: string, rest: string, s: string)
    requires NoNewline(channel)
    requires s == ReplyFrame(Output(channel, data)) + rest
    ensures ReadHeaders(s).0 == map[Some("Channel") := Some(channel), Some("Size") := Some(NatToDecimal(|data|))]
    ensures ReadHeaders(s).1 == data + rest
    ensures ToI(NatToDecimal(|data|)) == |data|
  {
    DecimalHasNoNewline(|data|);
    OutputBlockDecodes(channel, NatToDecimal(|data|), data, rest, s);
    ToIOfNatToDecimal(|data|);
  }

  /** `Status: ds` then a blank line, for any newline-free ds. */
  lemma StatusBlockDecodes(ds: string, rest: string, s: string)
    requires NoNewline(ds)
    requires s == "Status: " + ds + "\n" + "\n" + rest
    ensures ReadHeaders(s).0 == map[Some("Status") := Some(ds)]
    ensures ReadHeaders(s).1 == rest
  {
    assert s == "Status" + ": " + ds + "\n" + "\n" + rest;
    NamedLineDecodes("Status", ds, rest, s);
  }

  /**
   * ... and for status frames: the block holds exactly a `Status` that reads
   * back as the code, and no body follows.
   */
  lemma StatusFrameDecodes(code: int, rest: string, s: string)
    requires s == ReplyFrame(Status(code)) + rest
    ensures ReadHeaders(s).0 == map[Some("Status") := Some(IntToDecimal(code))]
    ensures ReadHeaders(s).1 == rest
    ensures ToI(IntToDecimal(code)) == code
  {
    DecimalHasNoNewline(code);
    StatusBlockDecodes(IntToDecimal(code), rest, s);
    ToIReadsLeadingDecimal(code, "");
    assert IntToDecimal(code) + "" == IntToDecimal(code);
  }
}

=== FILE: header_codec.dfy ===
/**
 * `read_headers`: the client's decoder for one header block read off the
 * socket. Lines are taken with `IO#gets` until a line that is exactly "\n" or
 * the end of the stream; each line is matched against `/([A-Za-z]*): (.*)/`
 * and stored as `headers[$1] = $2`, so a later line overwrites an earlier one
 * with the same key and a line that does not match stores `nil => nil`.
 */
module HeaderCodec {
  import opened Options
  import opened RubyText

  /** A decoded block: a Ruby Hash whose keys and values may be nil. */
  type Headers = map<Option<string>, Option<string>>

  // ---------------------------------------------------------------------------
  // IO#gets

  /** A line as `gets` returns it: non-empty, with a newline at most at its end. */
  predicate IsLine(l: string) {
    |l| > 0 && forall i :: 0 <= i < |l| - 1 ==> l[i] != '\n'
  }

  predicate EndsLine(l: string) {
    |l| > 0 && l[|l| - 1] == '\n'
  }

  /** A line of a header block as an encoder writes it. */
  predicate IsHeaderLine(l: string) {
    IsLine(l) && EndsLine(l) && l != "\n"
  }

  /** Length of the first line of `s`, its newline included. */
  function LineLength(s: string): (n: nat)
    ensures n <= |s| && (|s| > 0 ==> n > 0)
    ensures forall i :: 0 <= i < n - 1 ==> s[i] != '\n'
    ensures n == |s| || (n > 0 && s[n - 1] == '\n')
  {
    if |s| == 0 then 0 else if s[0] == '\n' then 1 else 1 + LineLength(s[1..])
  }

  /**
   * `IO#gets`: nil at the end of the stream, otherwise the shortest prefix
   * that ends in a newline, or everything that is left when there is none.
   */
  function Gets(s: string): (r: Option<(string, string)>)
    ensures r.None? <==> s == ""
    ensures r.Some? ==> r.value.0 + r.value.1 == s && IsLine(r.value.0)
    ensures r.Some? ==> EndsLine(r.value.0) || r.value.1 == ""
  {
    if s == "" then None
    else
      var n := LineLength(s);
      assert s[..n] + s[n..] == s;
      Some((s[..n], s[n..]))
  }

  lemma GetsTakesOneLine(l: string, tail: string)
    requires IsLine(l) && EndsLine(l)
    ensures Gets(l + tail) == Some((l, tail))
  {
    var s := l + tail;
    assert s[|l| - 1] == '\n';
    assert forall i :: 0 <= i < |l| - 1 ==> s[i] == l[i];
    assert LineLength(s) == |l|;
    assert s[..|l|] == l && s[|l|..] == tail;
  }

  // ---------------------------------------------------------------------------
  // The pattern /([A-Za-z]*): (.*)/

  /** ": " starts at index k of the line. */
  predicate SepAt(line: string, k: int) {
    0 <= k && k + 2 <= |line| && line[k] == ':' && line[k + 1] == ' '
  }

  predicate LettersBetween(line: string, i: int, k: int)
    requires 0 <= i <= k <= |line|
  {
    forall j :: i <= j < k ==> IsLetter(line[j])
  }

  /** The pattern can match starting at i, with its ": " at k. */
  predicate MatchesAt(line: string, i: int, k: int) {
    0 <= i <= k && SepAt(line, k) && LettersBetween(line, i, k)
  }

  /**
   * The match a leftmost regex engine reports: no match starts earlier, and
   * the one starting at i has its ": " at k.
   */
  ghost predicate LeftmostMatch(line: string, i: int, k: int) {
    MatchesAt(line, i, k) &&
    forall i', k' :: MatchesAt(line, i', k') ==> i < i' || (i == i' && k == k')
  }

  /** The first ": " at or after `from`. */
  function FirstSep(line: string, from: nat): (r: Option<nat>)
    ensures r.Some? ==> from <= r.value && SepAt(line, r.value)
    ensures r.Some? ==> forall j :: from <= j < r.value ==> !SepAt(line, j)
    ensures r.None? ==> forall j :: from <= j ==> !SepAt(line, j)
    decreases |line| - from
  {
    if from + 2 > |line| then None
    else if line[from] == ':' && line[from + 1] == ' ' then Some(from)
    else FirstSep(line, from + 1)
  }

  /** Start of the longest run of letters that ends at k. */
  function RunStart(line: string, k: nat): (i: nat)
    requires k <= |line|
    ensures i <= k && LettersBetween(line, i, k)
    ensures i == 0 || !IsLetter(line[i - 1])
  {
    if k == 0 || !IsLetter(line[k - 1]) then k else RunStart(line, k - 1)
  }

  /** What a greedy `(.*)` captures: everything up to the first newline. */
  function UntilNewline(t: string): (v: string)
    ensures v <= t && NoNewline(v)
    ensures |v| == |t| || t[|v|] == '\n'
  {
    if |t| == 0 || t[0] == '\n' then "" else [t[0]] + UntilNewline(t[1..])
  }

  /** `/([A-Za-z]*): (.*)/ =~ line`: Some(($1, $2)), or None when it fails. */
  function MatchLine(line: string): Option<(string, string)> {
    match FirstSep(line, 0)
    case None => None
    case Some(k) =>
      var i := RunStart(line, k);
      Some((line[i..k], UntilNewline(line[k + 2..])))
  }

  /**
   * `MatchLine` is the regex match: it fails exactly when the pattern matches
   * nowhere; otherwise $1 is the letter run ending at the first ": " (maximal,
   * possibly empty), which is also the leftmost match, and $2 is the text after
   * that ": " up to the first newline.
   */
  lemma MatchLineIsLeftmostMatch(line: string)
    ensures MatchLine(line).None? <==> forall i, k :: !MatchesAt(line, i, k)
    ensures MatchLine(line).None? <==> forall k :: !SepAt(line, k)
    ensures MatchLine(line).Some? ==>
      exists i, k ::
        && LeftmostMatch(line, i, k)
        && (forall j :: 0 <= j < k ==> !SepAt(line, j))
        && (i == 0 || !IsLetter(line[i - 1]))
        && MatchLine(line).value == (line[i..k], UntilNewline(line[k + 2..]))
  {
    match FirstSep(line, 0)
    case None =>
      forall i, k ensures !MatchesAt(line, i, k) {
        assert !SepAt(line, k);
      }
    case Some(p) =>
      var i := RunStart(line, p);
      assert MatchesAt(line, i, p);
      assert !IsLetter(line[p]);
      assert i > 0 ==> !IsLetter(line[i - 1]);
      assert LeftmostMatch(line, i, p);
  }

  // ---------------------------------------------------------------------------
  // Reading a block

  /**
   * The `while (line = soc.gets) != nil && line != "\n"` loop: the lines of the
   * block, and the rest of the stream after the blank line that ends it.
   */
  function ReadBlock(s: string): (r: (seq<string>, string))
    decreases |s|
  {
    match Gets(s)
    case None => ([], "")
    case Some((line, rest)) =>
      if line == "\n" then ([], rest)
      else
        var (ls, tail) := ReadBlock(rest);
        ([line] + ls, tail)
  }

  /**
   * Reading a block consumes the stream exactly up to and including the first
   * line that is "\n", or all of it when there is none; the lines before that
   * are returned whole and in order.
   */
  lemma {:induction false} ReadBlockConsumesThroughBlankLine(s: string)
    ensures forall j :: 0 <= j < |ReadBlock(s).0| ==> IsLine(ReadBlock(s).0[j]) && ReadBlock(s).0[j] != "\n"
    ensures forall j :: 0 <= j < |ReadBlock(s).0| - 1 ==> EndsLine(ReadBlock(s).0[j])
    ensures
      || (s == Join(ReadBlock(s).0) + "\n" + ReadBlock(s).1
          && (|ReadBlock(s).0| == 0 || EndsLine(ReadBlock(s).0[|ReadBlock(s).0| - 1])))
      || (s == Join(ReadBlock(s).0) && ReadBlock(s).1 == "")
    decreases |s|
  {
    match Gets(s)
    case None =>
    case Some((line, rest)) =>
      if line != "\n" {
        ReadBlockConsumesThroughBlankLine(rest);
        var (ls, tail) := ReadBlock(rest);
        assert ReadBlock(s) == ([line] + ls, tail);
        ConsStep(line, rest, ls, tail);
      }
  }

  /** The inductive step of ReadBlockConsumesThroughBlankLine, for one more line. */
  lemma ConsStep(line: string, rest: string, ls: seq<string>, tail: string)
    requires IsLine(line) && line != "\n" && (EndsLine(line) || rest == "")
    requires forall j :: 0 <= j < |ls| ==> IsLine(ls[j]) && ls[j] != "\n"
    requires forall j :: 0 <= j < |ls| - 1 ==> EndsLine(ls[j])
    requires
      || (rest == Join(ls) + "\n" + tail && (|ls| == 0 || EndsLine(ls[|ls| - 1])))
      || (rest == Join(ls) && tail == "")
    requires rest == "" ==> ls == [] && tail == ""
    ensures forall j :: 0 <= j < |[line] + ls| ==> IsLine(([line] + ls)[j]) && ([line] + ls)[j] != "\n"
    ensures forall j :: 0 <= j < |[line] + ls| - 1 ==> EndsLine(([line] + ls)[j])
    ensures
      || (line + rest == Join([line] + ls) + "\n" + tail
          && EndsLine(([line] + ls)[|[line] + ls| - 1]))
      || (line + rest == Join([line] + ls) && tail == "")
  {
    assert ([line] + ls)[1..] == ls;
    if rest == "" {
      assert Join([line]) == line;
    }
  }

  /** Reading back a block an encoder wrote gives its lines and the rest of the stream. */
  lemma {:induction false} ReadBlockOfJoin(ls: seq<string>, rest: string)
    requires forall j :: 0 <= j < |ls| ==> IsHeaderLine(ls[j])
    ensures ReadBlock(Join(ls) + "\n" + rest).0 == ls
    ensures ReadBlock(Join(ls) + "\n" + rest).1 == rest
    decreases |ls|
  {
    var s := Join(ls) + "\n" + rest;
    if |ls| == 0 {
      assert s == "\n" + rest;
      GetsTakesOneLine("\n", rest);
      ReadBlockEnd(s);
    } else {
      var t := Join(ls[1..]) + "\n" + rest;
      JoinFirst(ls, rest);
      GetsTakesOneLine(ls[0], t);
      ReadBlockStep(s);
      ReadBlockOfJoin(ls[1..], rest);
      assert [ls[0]] + ls[1..] == ls;
    }
  }

  lemma JoinFirst(ls: seq<string>, rest: string)
    requires |ls| > 0
    ensures Join(ls) + "\n" + rest == ls[0] + (Join(ls[1..]) + "\n" + rest)
  {
    assert Join(ls) == ls[0] + Join(ls[1..]);
    ConcatAssoc4(ls[0], Join(ls[1..]), "\n", rest);
  }

  /** One more line of the block: `ReadBlock` takes it and goes on after it. */
  lemma ReadBlockStep(s: string)
    requires Gets(s).Some? && Gets(s).value.0 != "\n"
    ensures ReadBlock(s).0 == [Gets(s).value.0] + ReadBlock(Gets(s).value.1).0
    ensures ReadBlock(s).1 == ReadBlock(Gets(s).value.1).1
  {
  }

  /** The end of the block: the blank line, or the end of the stream. */
  lemma ReadBlockEnd(s: string)
    requires Gets(s).None? || Gets(s).value.0 == "\n"
    ensures ReadBlock(s).0 == []
    ensures ReadBlock(s).1 == if Gets(s).None? then s else Gets(s).value.1
  {
  }

  // ---------------------------------------------------------------------------
  // Decoding

  /** `headers[$1] = $2` for one line. */
  function Entry(line: string): (Option<string>, Option<string>) {
    match MatchLine(line)
    case None => (None, None)
    case Some((key, value)) => (Some(key), Some(value))
  }

  /** Stores the entries of the lines in order, so a later key overwrites. */
  function Decode(ls: seq<string>): Headers {
    if |ls| == 0 then map[]
    else
      var e := Entry(ls[|ls| - 1]);
      Decode(ls[..|ls| - 1])[e.0 := e.1]
  }

  /** `read_headers(soc)`: the decoded block and the stream left for the body. */
  function ReadHeaders(s: string): (Headers, string) {
    var (ls, rest) := ReadBlock(s);
    (Decode(ls), rest)
  }

  /**
   * `read_headers` as the loop it is written as: take lines while `gets`
   * gives one that is not "\n", storing each line's entry as it goes; the
   * blank line that ends the block is consumed. The result is the one the
   * recursive definition gives.
   */
  method ReadHeadersLoop(s: string) returns (headers: Headers, rest: string)
    ensures headers == ReadHeaders(s).0
    ensures rest == ReadHeaders(s).1
  {
    ghost var ls: seq<string> := [];
    headers := map[];
    rest := s;
    var g := Gets(rest);
    while g.Some? && g.value.0 != "\n"
      invariant g == Gets(rest)
      invariant headers == Decode(ls)
      invariant ReadBlock(s).0 == ls + ReadBlock(rest).0
      invariant ReadBlock(s).1 == ReadBlock(rest).1
      decreases |rest|
    {
      var line := g.value.0;
      var e := Entry(line);
      headers := headers[e.0 := e.1];
      DecodeSnoc(ls, line);
      ReadBlockStep(rest);
      SeqAssoc(ls, [line], ReadBlock(g.value.1).0);
      ls := ls + [line];
      rest := g.value.1;
      g := Gets(rest);
    }
    ReadBlockEnd(rest);
    if g.Some? {
      rest := g.value.1;
    }
    assert ls + [] == ls;
  }

  lemma SeqAssoc(a: seq<string>, b: seq<string>, c: seq<string>)
    ensures a + b + c == a + (b + c)
  {
  }

  lemma DecodeSnoc(ls: seq<string>, l: string)
    ensures Decode(ls + [l]) == Decode(ls)[Entry(l).0 := Entry(l).1]
  {
    assert (ls + [l])[..|ls|] == ls;
  }

  lemma DecodeOne(l: string)
    ensures Decode([l]) == map[Entry(l).0 := Entry(l).1]
  {
    assert [l][..0] == [];
  }

  lemma DecodeTwo(l1: string, l2: string)
    ensures Decode([l1, l2]) == map[Entry(l1).0 := Entry(l1).1][Entry(l2).0 := Entry(l2).1]
  {
    assert [l1, l2][..1] == [l1];
    DecodeOne(l1);
  }

  /** `read_headers` on a block an encoder wrote: its decoded lines, and the rest. */
  lemma ReadHeadersOfJoin(ls: seq<string>, rest: string)
    requires forall j :: 0 <= j < |ls| ==> IsHeaderLine(ls[j])
    ensures ReadHeaders(Join(ls) + "\n" + rest).0 == Decode(ls)
    ensures ReadHeaders(Join(ls) + "\n" + rest).1 == rest
  {
    ReadBlockOfJoin(ls, rest);
  }

  /** `headers[name]`: nil when absent. */
  function Get(h: Headers, name: string): (v: Option<string>)
    ensures Some(name) !in h ==> v.None?
  {
    if Some(name) in h then h[Some(name)] else None
  }

  /** The line sets `name`. */
  predicate HasKey(line: string, name: string) {
    Entry(line).0 == Some(name)
  }

  /** Line j is the last line of the block that sets `name`. */
  predicate LastWith(ls: seq<string>, name: string, j: int) {
    0 <= j < |ls| && HasKey(ls[j], name) &&
    forall j' :: j < j' < |ls| ==> !HasKey(ls[j'], name)
  }

  /** One more line either sets `name` or leaves its lookup as it was. */
  lemma GetDecodeLast(ls: seq<string>, name: string)
    requires |ls| > 0
    ensures HasKey(ls[|ls| - 1], name) ==> Get(Decode(ls), name) == Entry(ls[|ls| - 1]).1
    ensures !HasKey(ls[|ls| - 1], name) ==> Get(Decode(ls), name) == Get(Decode(ls[..|ls| - 1]), name)
  {
  }

  /** A name is present exactly when some line of the block sets it. */
  lemma {:induction false} DecodeHasKey(ls: seq<string>, name: string)
    ensures Get(Decode(ls), name).Some? <==> exists j :: 0 <= j < |ls| && HasKey(ls[j], name)
    decreases |ls|
  {
    if |ls| > 0 {
      var init := ls[..|ls| - 1];
      DecodeHasKey(init, name);
      GetDecodeLast(ls, name);
      assert forall j :: 0 <= j < |init| ==> init[j] == ls[j];
      if HasKey(ls[|ls| - 1], name) {
        assert Entry(ls[|ls| - 1]).1.Some?;
      }
    }
  }

  /**
   * When a name is present, its value is the one of the last line that sets
   * it: later duplicates overwrite earlier ones, and lines the pattern does not
   * match never set a name.
   */
  lemma {:induction false} DecodeLastWins(ls: seq<string>, name: string, j: int)
    requires LastWith(ls, name, j)
    ensures Get(Decode(ls), name) == Entry(ls[j]).1
    decreases |ls|
  {
    GetDecodeLast(ls, name);
    if j < |ls| - 1 {
      var init := ls[..|ls| - 1];
      assert forall i :: 0 <= i < |init| ==> init[i] == ls[i];
      assert LastWith(init, name, j);
      DecodeLastWins(init, name, j);
    }
  }

  /**
   * The nil key is present exactly when some line failed to match, and it maps
   * to nil; every key that is a string maps to a string.
   */
  lemma {:induction false} DecodeNilEntry(ls: seq<string>)
    ensures None in Decode(ls) <==> exists j :: 0 <= j < |ls| && MatchLine(ls[j]).None?
    ensures forall k :: k in Decode(ls) ==> (k.None? <==> Decode(ls)[k].None?)
    decreases |ls|
  {
    if |ls| > 0 {
      var init := ls[..|ls| - 1];
      DecodeNilEntry(init);
      assert forall j :: 0 <= j < |init| ==> init[j] == ls[j];
      if exists j :: 0 <= j < |ls| && MatchLine(ls[j]).None? {
        var j :| 0 <= j < |ls| && MatchLine(ls[j]).None?;
        if j < |init| {
          assert MatchLine(init[j]).None?;
        }
      }
    }
  }

  /** A line the pattern does not match changes no named entry. */
  lemma UnmatchedLineIgnored(ls: seq<string>, line: string, name: string)
    requires MatchLine(line).None?
    ensures Get(Decode(ls + [line]), name) == Get(Decode(ls), name)
  {
    assert (ls + [line])[..|ls|] == ls;
  }

  /** A header line `name: v` decodes to the pair (name, v without its newline). */
  lemma MatchNamedLine(name: string, v: string)
    requires |name| > 0 && AllLetters(name)
    requires NoNewline(v)
    ensures MatchLine(name + ": " + v + "\n") == Some((name, v))
    ensures IsHeaderLine(name + ": " + v + "\n")
  {
    var line := name + ": " + v + "\n";
    var k := |name|;
    assert SepAt(line, k);
    forall j | 0 <= j < k ensures !SepAt(line, j) {
      assert line[j] == name[j];
    }
    var p := FirstSep(line, 0).value;
    assert p == k;
    assert LettersBetween(line, 0, k) by {
      forall j | 0 <= j < k ensures IsLetter(line[j]) {
        assert line[j] == name[j];
      }
    }
    var i := RunStart(line, k);
    assert i == 0;
    assert line[..k] == name;
    assert line[k + 2..] == v + "\n";
    var t := v + "\n";
    assert forall j :: 0 <= j < |v| ==> t[j] == v[j];
    assert t[|v|] == '\n';
    var u := UntilNewline(t);
    assert |u| == |v|;
    assert u == t[..|v|] == v;
  }
}

=== FILE: options.dfy ===
/** Ruby's nil, made explicit: a value that may be absent. */
module Options {

  datatype Option<+T> = None | Some(value: T)
}

=== FILE: ruby_text.dfy ===
/**
 * The handful of Ruby core string operations the client relies on:
 * character classes, `IO#puts` line termination, `Integer#to_s` and
 * `String#to_i`. Every string models a sequence of octets, one char per octet.
 */
module RubyText {
  import opened Options

  predicate IsLetter(c: char) {
    ('A' <= c <= 'Z') || ('a' <= c <= 'z')
  }

  predicate IsDigit(c: char) {
    '0' <= c <= '9'
  }

  /** Ruby's ISSPACE: space, tab, newline, vertical tab, form feed, carriage return. */
  predicate IsSpace(c: char) {
    c == ' ' || c == '\t' || c == '\n' || c == 11 as char || c == 12 as char || c == '\r'
  }

  predicate AllLetters(s: string) {
    forall i :: 0 <= i < |s| ==> IsLetter(s[i])
  }

  predicate AllDigits(s: string) {
    forall i :: 0 <= i < |s| ==> IsDigit(s[i])
  }

  predicate NoNewline(s: string) {
    forall i :: 0 <= i < |s| ==> s[i] != '\n'
  }

  /** The concatenation of a sequence of strings, in order. */
  function Join(parts: seq<string>): string {
    if |parts| == 0 then "" else parts[0] + Join(parts[1..])
  }

  lemma {:induction false} JoinAppend(a: seq<string>, b: seq<string>)
    ensures Join(a + b) == Join(a) + Join(b)
    decreases |a|
  {
    if |a| == 0 {
      assert a + b == b;
    } else {
      assert (a + b)[1..] == a[1..] + b;
      JoinAppend(a[1..], b);
    }
  }

  /**
   * `IO#puts(s)`: writes `s`, then a newline unless `s` already ends with one.
   */
  function Puts(s: string): (w: string)
    ensures w == s || w == s + "\n"
    ensures |w| > 0 && w[|w| - 1] == '\n'
    ensures |s| > 0 && s[|s| - 1] == '\n' ==> w == s
  {
    if |s| > 0 && s[|s| - 1] == '\n' then s else s + "\n"
  }

  // ---------------------------------------------------------------------------
  // Integer#to_s

  function DigitChar(d: nat): (c: char)
    requires d < 10
    ensures IsDigit(c)
  {
    ('0' as int + d) as char
  }

  function DigitValue(c: char): (d: nat)
    requires IsDigit(c)
    ensures d < 10 && DigitChar(d) == c
  {
    c as int - '0' as int
  }

  /** Decimal digits of `n`, most significant first, without leading zeros. */
  function NatToDecimal(n: nat): (ds: string)
    ensures |ds| > 0 && AllDigits(ds)
    ensures ds[0] == '0' ==> n == 0 && ds == "0"
  {
    if n < 10 then [DigitChar(n)] else NatToDecimal(n / 10) + [DigitChar(n % 10)]
  }

  /** `Integer#to_s`: a minus sign before the digits of a negative number. */
  function IntToDecimal(n: int): (ds: string)
    ensures |ds| > 0
  {
    if n < 0 then "-" + NatToDecimal(-n) else NatToDecimal(n)
  }

  // ---------------------------------------------------------------------------
  // String#to_i

  /** The value of a string of decimal digits, most significant first. */
  function DecimalValue(ds: string): nat
    requires AllDigits(ds)
  {
    if |ds| == 0 then 0 else DecimalValue(ds[..|ds| - 1]) * 10 + DigitValue(ds[|ds| - 1])
  }

  function SkipSpace(s: string): (t: string)
    ensures t <= s || (|t| <= |s| && t == s[|s| - |t|..])
    ensures |t| == 0 || !IsSpace(t[0])
  {
    if |s| > 0 && IsSpace(s[0]) then SkipSpace(s[1..]) else s
  }

  /**
   * The digits of the longest prefix of `s` of the form digit (`_`? digit)*:
   * Ruby accepts a single underscore between two digits and stops at anything
   * else.
   */
  function DigitRun(s: string): (ds: string)
    ensures AllDigits(ds) && |ds| <= |s|
  {
    if |s| == 0 || !IsDigit(s[0]) then ""
    else if |s| >= 3 && s[1] == '_' && IsDigit(s[2]) then [s[0]] + DigitRun(s[2..])
    else [s[0]] + DigitRun(s[1..])
  }

  /** `to_i` after the sign: an optional "0d" radix prefix, then the digit run. */
  function UnsignedToI(t: string): nat {
    var u := if |t| > 1 && t[0] == '0' && (t[1] == 'd' || t[1] == 'D') then t[2..] else t;
    DecimalValue(DigitRun(u))
  }

  /**
   * `String#to_i`: leading white space is skipped, one `+` or `-` is
   * accepted, and the leading decimal number is returned; 0 when there is none.
   */
  function ToI(s: string): int {
    var t := SkipSpace(s);
    if |t| > 0 && t[0] == '-' then -(UnsignedToI(t[1..]) as int)
    else if |t| > 0 && t[0] == '+' then UnsignedToI(t[1..])
    else UnsignedToI(t)
  }

  /** `nil.to_i` is 0; otherwise `String#to_i`. */
  function NilableToI(v: Option<string>): int {
    match v
    case None => 0
    case Some(t) => ToI(t)
  }

  // ---------------------------------------------------------------------------
  // Properties

  /** Regrouping a concatenation, stated once so that proofs need not redo it. */
  lemma ConcatAssoc(a: string, b: string, c: string)
    ensures a + b + c == a + (b + c)
  {
  }

  lemma ConcatAssoc4(a: string, b: string, c: string, d: string)
    ensures a + b + c + d == a + (b + c + d)
  {
  }

  /** What `to_s` writes is one line's worth of text. */
  lemma DecimalHasNoNewline(n: int)
    ensures NoNewline(IntToDecimal(n))
    ensures n >= 0 ==> NoNewline(NatToDecimal(n))
  {
    var ds := NatToDecimal(if n < 0 then -n else n);
    assert AllDigits(ds);
    assert IntToDecimal(n) == ds || IntToDecimal(n) == "-" + ds;
  }

  /** Reading back the digits `Integer#to_s` writes gives the number. */
  lemma {:induction false} DecimalValueOfNatToDecimal(n: nat)
    ensures DecimalValue(NatToDecimal(n)) == n
  {
    var ds := NatToDecimal(n);
    if n >= 10 {
      DecimalValueOfNatToDecimal(n / 10);
      assert ds[..|ds| - 1] == NatToDecimal(n / 10);
      assert DigitValue(ds[|ds| - 1]) == n % 10;
    } else {
      assert DigitValue(ds[0]) == n;
    }
  }

  /** The digit run stops at the first character that cannot continue a number. */
  lemma {:induction false} DigitRunStopsAtNonDigit(ds: string, rest: string)
    requires AllDigits(ds)
    requires rest == "" || (!IsDigit(rest[0]) && rest[0] != '_')
    ensures DigitRun(ds + rest) == ds
    decreases |ds|
  {
    if |ds| == 0 {
      assert ds + rest == rest;
    } else {
      var s := ds + rest;
      assert s[0] == ds[0];
      assert |s| >= 2 ==> s[1] != '_' by {
        if |s| >= 2 {
          if |ds| >= 2 { assert s[1] == ds[1]; } else { assert s[1] == rest[0]; }
        }
      }
      assert s[1..] == ds[1..] + rest;
      DigitRunStopsAtNonDigit(ds[1..], rest);
      assert [ds[0]] + ds[1..] == ds;
    }
  }

  /**
   * `to_i` reads back what `to_s` writes, for every integer, and ignores
   * whatever follows the number as long as it cannot continue it: anything but
   * a digit or `_`, and, after a lone `0`, anything but the `d` of a "0d"
   * prefix.
   */
  lemma ToIReadsLeadingDecimal(n: int, rest: string)
    requires rest == "" || (!IsDigit(rest[0]) && rest[0] != '_' && (n != 0 || (rest[0] != 'd' && rest[0] != 'D')))
    ensures ToI(IntToDecimal(n) + rest) == n
  {
    var m: nat := if n < 0 then -n else n;
    var t := NatToDecimal(m) + rest;
    var s := IntToDecimal(n) + rest;
    UnsignedReadsDecimal(m, rest);
    if n < 0 {
      assert s == "-" + t;
      assert s[1..] == t;
      assert SkipSpace(s) == s;
    } else {
      assert s == t;
      assert IsDigit(s[0]);
      assert SkipSpace(s) == s;
    }
  }

  /** The unsigned part of ToIReadsLeadingDecimal: the digits `to_s` writes read back. */
  lemma UnsignedReadsDecimal(m: nat, rest: string)
    requires rest == "" || (!IsDigit(rest[0]) && rest[0] != '_' && (m != 0 || (rest[0] != 'd' && rest[0] != 'D')))
    ensures UnsignedToI(NatToDecimal(m) + rest) == m
    ensures |NatToDecimal(m) + rest| > 0 && IsDigit((NatToDecimal(m) + rest)[0])
  {
    var ds := NatToDecimal(m);
    DigitRunStopsAtNonDigit(ds, rest);
    DecimalValueOfNatToDecimal(m);
    var t := ds + rest;
    assert !(|t| > 1 && t[0] == '0' && (t[1] == 'd' || t[1] == 'D')) by {
      if |t| > 1 && t[0] == '0' {
        assert ds == "0";
        assert t[1] == rest[0];
      }
    }
  }

  /** `to_i` reads back a length written by `to_s`. */
  lemma ToIOfNatToDecimal(n: nat)
    ensures ToI(NatToDecimal(n)) == n
  {
    ToIReadsLeadingDecimal(n, "");
    assert IntToDecimal(n) + "" == NatToDecimal(n);
  }

  /** A string without any digit reads as 0. */
  lemma {:induction false} ToIWithoutDigits(s: string)
    requires forall i :: 0 <= i < |s| ==> !IsDigit(s[i])
    ensures ToI(s) == 0
  {
    var t := SkipSpace(s);
    assert forall i :: 0 <= i < |t| ==> !IsDigit(t[i]);
    var u := if |t| > 0 && (t[0] == '-' || t[0] == '+') then t[1..] else t;
    assert |u| == 0 || !IsDigit(u[0]);
    assert DigitRun(u) == "";
    assert UnsignedToI(u) == 0;
  }
}

=== FILE: session.dfy ===
/**
 * The client's main loop: wait on the daemon socket and stdin together, relay
 * one reply frame from the socket to stdout or stderr, or send one chunk of
 * stdin to the socket, and stop on a `Status` frame.
 *
 * A session is the state of the byte streams around the client: what the
 * daemon has yet to send (`inbound`, in full, with its end of stream after
 * it), the local input not yet read (`stdin`), and everything the client has
 * written so far (`stdout`, `stderr`, `outbound`). The timing of the outside
 * world is a parameter: a `Wakeup` says which of the two sources `IO.select`
 * reports ready and how many bytes the stdin pipe holds at that moment.
 */
module Session {
  import opened Options
  import opened RubyText
  import opened HeaderCodec
  import opened Frames

  datatype Io = Socket | Stdin

  datatype Session = Session(inbound: string, stdin: string, stdout: string, stderr: string, outbound: string)

  /**
   * How one service of a ready source ends, with the state at that point;
   * `Break` leaves only the `.each`.
   */
  datatype Step = Continue(s: Session) | Break(s: Session) | Exit(code: int, s: Session) | Raise(s: Session)

  /**
   * The state after a wakeup: still looping, ended by `exit` with the daemon's
   * status, or ended by an exception that the top-level `rescue` turns into
   * `exit(1)`.
   */
  datatype Outcome = Running(s: Session) | Exited(code: int, s: Session) | Failed(s: Session)

  type Pos = n: int | n >= 1 witness 1

  /** What `IO.select` reports, and how many bytes stdin could hand over now. */
  datatype Wakeup = Wakeup(ready: set<Io>, avail: Pos)

  // ---------------------------------------------------------------------------
  // Reading the socket

  /**
   * Ruby hands an Integer argument to C as an `int` (NUM2INT, for `exit`) or a
   * `long` (NUM2LONG, for `IO#read`) and raises RangeError for a value that
   * does not fit; a 64-bit platform is assumed.
   */
  predicate FitsInt(n: int) {
    -0x8000_0000 <= n < 0x8000_0000
  }

  predicate FitsLong(n: int) {
    -0x8000_0000_0000_0000 <= n < 0x8000_0000_0000_0000
  }

  datatype ReadResult = Bytes(data: string, rest: string) | AtEof | Raises

  /**
   * `IO#read(n)` on a blocking stream: a length that is negative or too wide
   * for a `long` raises, a zero length gives "" even at the end, a positive
   * length waits for n bytes and gives fewer only when the stream ends first,
   * and nil when it has already ended.
   */
  function Read(stream: string, n: int): (r: ReadResult)
    ensures r.Raises? <==> n < 0 || !FitsLong(n)
    ensures r.AtEof? <==> 0 < n && FitsLong(n) && stream == ""
    ensures r.Bytes? ==> r.data + r.rest == stream
    ensures r.Bytes? ==> |r.data| == n || (|r.data| < n && r.rest == "")
  {
    if n < 0 || !FitsLong(n) then Raises
    else if n == 0 then Bytes("", stream)
    else if stream == "" then AtEof
    else if n <= |stream| then Bytes(stream[..n], stream[n..])
    else Bytes(stream, "")
  }

  /**
   * The socket branch: read a header block; a `Status` ends the session with
   * its `to_i`, or raises when that does not fit the `int` `exit` takes;
   * otherwise read `Size.to_i` bytes (nil when absent reads as 0)
   * and append them to stdout for channel "o", to stderr for "e", or drop
   * them for any other channel.
   */
  function ServiceSocket(s: Session): Step {
    var (h, after) := ReadHeaders(s.inbound);
    var status := Get(h, "Status");
    if status.Some? then
      var code := ToI(status.value);
      if FitsInt(code) then Exit(code, s.(inbound := after)) else Raise(s.(inbound := after))
    else
      match Read(after, NilableToI(Get(h, "Size")))
      case Raises => Raise(s.(inbound := after))
      case AtEof => Break(s.(inbound := after))
      case Bytes(data, rest) =>
        var channel := Get(h, "Channel");
        if channel == Some("o") then Continue(s.(inbound := rest, stdout := s.stdout + data))
        else if channel == Some("e") then Continue(s.(inbound := rest, stderr := s.stderr + data))
        else Continue(s.(inbound := rest))
  }

  /**
   * The socket branch only consumes the socket and only appends to one of the
   * two outputs; it never touches stdin or what goes to the daemon. It gives
   * up nothing but the session's end or the `nil` of a closed socket.
   */
  lemma SocketServiceFrame(s: Session)
    ensures ServiceSocket(s).s.stdin == s.stdin && ServiceSocket(s).s.outbound == s.outbound
    ensures |ServiceSocket(s).s.inbound| <= |s.inbound|
    ensures s.stdout <= ServiceSocket(s).s.stdout && s.stderr <= ServiceSocket(s).s.stderr
    ensures ServiceSocket(s).s.stdout == s.stdout || ServiceSocket(s).s.stderr == s.stderr
    ensures !ServiceSocket(s).Continue? ==>
      ServiceSocket(s).s.stdout == s.stdout && ServiceSocket(s).s.stderr == s.stderr
    ensures ServiceSocket(s).Break? ==> ServiceSocket(s).s.inbound == ""
  {
    ReadHeadersShortens(s.inbound);
  }

  // ---------------------------------------------------------------------------
  // Reading stdin

  function Min(a: int, b: int): int {
    if a <= b then a else b
  }

  /**
   * The stdin branch: `read_nonblock(512)` hands over what the pipe holds, at
   * most 512 bytes, and that chunk goes out as a data frame; at the end of
   * stdin it raises EOFError instead and the empty frame goes out. The end of
   * stdin is reported again on every later wakeup, so the empty frame is sent
   * every time.
   */
  function ServiceStdin(s: Session, avail: Pos): (r: Step)
    ensures r.Continue?
    ensures r.s.inbound == s.inbound && r.s.stdout == s.stdout && r.s.stderr == s.stderr
    ensures |r.s.stdin| <= |s.stdin|
    ensures s.stdin == s.stdin[..|s.stdin| - |r.s.stdin|] + r.s.stdin
    ensures r.s.outbound == s.outbound + DataFrame(s.stdin[..|s.stdin| - |r.s.stdin|])
    ensures s.stdin == "" <==> r.s.stdin == s.stdin
    ensures |s.stdin| - |r.s.stdin| <= ChunkSize && |s.stdin| - |r.s.stdin| <= avail
    ensures |s.stdin| - |r.s.stdin| == ChunkSize || |s.stdin| - |r.s.stdin| == avail || r.s.stdin == ""
  {
    if s.stdin == "" then
      EofFrameIsEmptyDataFrame();
      assert s.stdin[..0] == "";
      Continue(s.(outbound := s.outbound + EofFrame))
    else
      var n := Min(Min(ChunkSize, avail), |s.stdin|);
      var data := s.stdin[..n];
      assert s.stdin == data + s.stdin[n..];
      Continue(s.(stdin := s.stdin[n..], outbound := s.outbound + DataFrame(data)))
  }

  // ---------------------------------------------------------------------------
  // IO.select and the pass over its result

  /** The watch list `[s, $stdin]`. */
  const Watched: seq<Io> := [Socket, Stdin]

  /** The ready members of `watch`, in the order they were given. */
  function ReadyOf(watch: seq<Io>, ready: set<Io>): (r: seq<Io>)
    ensures forall i :: 0 <= i < |r| ==> r[i] in ready && r[i] in watch
    ensures forall x :: x in watch && x in ready ==> x in r
    ensures |r| <= |watch|
    ensures |watch| > 0 && watch[0] in ready ==> |r| > 0 && r[0] == watch[0]
  {
    if |watch| == 0 then []
    else if watch[0] in ready then [watch[0]] + ReadyOf(watch[1..], ready)
    else ReadyOf(watch[1..], ready)
  }

  /** `IO.select([s, $stdin])`: the readable ones, then no writable and no errored ones. */
  function SelectResult(w: Wakeup): seq<seq<Io>> {
    [ReadyOf(Watched, w.ready), [], []]
  }

  /** The body of the `.each` block for one group: only its first member is looked at. */
  function ServiceGroup(s: Session, group: seq<Io>, avail: Pos): Step {
    if |group| == 0 then Continue(s)
    else if group[0] == Socket then ServiceSocket(s)
    else ServiceStdin(s, avail)
  }

  /** `.each` over the groups, left early by `break`, `exit` or an exception. */
  function EachPass(s: Session, groups: seq<seq<Io>>, avail: Pos): Step
    decreases |groups|
  {
    if |groups| == 0 then Continue(s)
    else
      match ServiceGroup(s, groups[0], avail)
      case Continue(s') => EachPass(s', groups[1..], avail)
      case other => other
  }

  function Finish(st: Step): Outcome {
    match st
    case Continue(s) => Running(s)
    case Break(s) => Running(s)
    case Exit(code, s) => Exited(code, s)
    case Raise(s) => Failed(s)
  }

  /** One iteration of `while true`: select, then the pass over its result. */
  function Wake(s: Session, w: Wakeup): Outcome {
    Finish(EachPass(s, SelectResult(w), w.avail))
  }

  /** The loop over a sequence of wakeups; an ended session stays ended. */
  function Run(s: Session, ws: seq<Wakeup>): Outcome
    decreases |ws|
  {
    if |ws| == 0 then Running(s)
    else
      match Wake(s, ws[0])
      case Running(s') => Run(s', ws[1..])
      case other => other
  }

  /** `session(s)` before the loop: the handshake has gone out. */
  function Start(cwd: string, args: seq<string>, cookie: string, inbound: string, stdin: string): Session {
    Session(inbound, stdin, "", "", Handshake(cwd, args, cookie))
  }

  /** The status the process ends with: `exit(n)` keeps the low 8 bits, the rescue exits 1. */
  function ExitStatus(o: Outcome): (st: int)
    requires !o.Running?
    ensures 0 <= st < 256
    ensures o.Failed? ==> st == 1
    ensures o.Exited? ==> (st - o.code) % 256 == 0
  {
    match o
    case Failed(_) => 1
    case Exited(code, _) => code % 256
  }

  // ---------------------------------------------------------------------------
  // Helpers

  lemma ReadHeadersShortens(s: string)
    ensures |ReadHeaders(s).1| <= |s|
  {
    ReadBlockSuffix(s);
  }

  lemma {:induction false} ReadBlockSuffix(s: string)
    ensures |ReadBlock(s).1| <= |s|
    decreases |s|
  {
    match Gets(s)
    case None =>
    case Some((line, rest)) =>
      if line != "\n" {
        ReadBlockSuffix(rest);
      }
  }

  // ---------------------------------------------------------------------------
  // One wakeup

  /** Once the first group has been served, the two empty groups do nothing. */
  lemma EachPassFirstGroup(s: Session, g: seq<Io>, avail: Pos)
    ensures Finish(EachPass(s, [g, [], []], avail)) == Finish(ServiceGroup(s, g, avail))
  {
    var gs := [g, [], []];
    assert gs[1..] == [[], []];
    match ServiceGroup(s, g, avail)
    case Continue(s') =>
      EachPassEmptyGroups(s', avail);
    case _ =>
  }

  lemma EachPassEmptyGroups(s: Session, avail: Pos)
    ensures EachPass(s, [[], []], avail) == Continue(s)
  {
    var gs: seq<seq<Io>> := [[], []];
    assert gs[1..] == [[]];
    assert gs[1..][1..] == [];
  }

  /**
   * A wakeup serves at most one source: the socket whenever it is ready, stdin
   * only when the socket is not, and nothing when neither is.
   */
  lemma WakeServesFirstReady(s: Session, w: Wakeup)
    ensures Socket in w.ready ==> Wake(s, w) == Finish(ServiceSocket(s))
    ensures Socket !in w.ready && Stdin in w.ready ==> Wake(s, w) == Finish(ServiceStdin(s, w.avail))
    ensures Socket !in w.ready && Stdin !in w.ready ==> Wake(s, w) == Running(s)
  {
    var r := ReadyOf(Watched, w.ready);
    assert Watched[1..] == [Stdin] && Watched[1..][1..] == [];
    if Socket in w.ready {
      assert r[0] == Socket;
    } else if Stdin in w.ready {
      assert r == [Stdin];
    } else {
      assert r == [];
    }
    EachPassFirstGroup(s, r, w.avail);
  }

  /** While the socket is ready, stdin is neither read nor forwarded. */
  lemma SocketFirst(s: Session, w: Wakeup)
    requires Socket in w.ready
    ensures Wake(s, w).s.stdin == s.stdin && Wake(s, w).s.outbound == s.outbound
  {
    WakeServesFirstReady(s, w);
    SocketServiceFrame(s);
  }

  /**
   * `exit` is only ever reached with a status that fits an `int`, so the
   * process status is the low byte of a C `int`.
   */
  lemma WakeExitsWithInt(s: Session, w: Wakeup)
    ensures Wake(s, w).Exited? ==> FitsInt(Wake(s, w).code)
  {
    WakeServesFirstReady(s, w);
  }

  /**
   * A `Status` frame ends the session: with the status the daemon sent when it
   * fits an `int`, and through the `rescue` of the RangeError otherwise.
   */
  lemma StatusFrameEndsSession(s: Session, w: Wakeup, code: int, rest: string)
    requires s.inbound == ReplyFrame(Status(code)) + rest
    requires Socket in w.ready
    ensures FitsInt(code) ==> Wake(s, w) == Exited(code, s.(inbound := rest))
    ensures !FitsInt(code) ==> Wake(s, w) == Failed(s.(inbound := rest))
  {
    StatusFrameDecodes(code, rest, s.inbound);
    WakeServesFirstReady(s, w);
  }

  /**
   * Whatever else its block holds, a `Status` ends the session at that block:
   * with the status's `to_i` when it fits an `int`, through the `rescue`
   * otherwise, and no body after the block is read.
   */
  lemma StatusEndsSession(s: Session, w: Wakeup, v: string)
    requires Get(ReadHeaders(s.inbound).0, "Status") == Some(v)
    requires Socket in w.ready
    ensures FitsInt(ToI(v)) ==> Wake(s, w) == Exited(ToI(v), s.(inbound := ReadHeaders(s.inbound).1))
    ensures !FitsInt(ToI(v)) ==> Wake(s, w) == Failed(s.(inbound := ReadHeaders(s.inbound).1))
  {
    WakeServesFirstReady(s, w);
  }

  /**
   * A `Status` that shares its block with `Channel` and `Size` still ends the
   * session there, and the body that `Size` announces is never read: with
   * `Channel: o`, `Size: 2`, `Status: 3` and then `ab`, the process exits
   * with 3 and `ab` stays on the socket.
   */
  lemma StatusBesideOutputHeaders(s: Session, w: Wakeup, channel: string, size: string, code: int, rest: string)
    requires NoNewline(channel) && NoNewline(size)
    requires s.inbound == "Channel: " + channel + "\n" + "Size: " + size + "\n"
                         + "Status: " + IntToDecimal(code) + "\n" + "\n" + rest
    requires Socket in w.ready
    ensures FitsInt(code) ==> Wake(s, w) == Exited(code, s.(inbound := rest))
    ensures !FitsInt(code) ==> Wake(s, w) == Failed(s.(inbound := rest))
  {
    var ds := IntToDecimal(code);
    StatusBesideOutputDecodes(channel, size, ds, rest, s.inbound);
    ToIReadsLeadingDecimal(code, "");
    assert ds + "" == ds;
    StatusEndsSession(s, w, ds);
  }

  lemma StatusBesideOutputDecodes(channel: string, size: string, ds: string, rest: string, t: string)
    requires NoNewline(channel) && NoNewline(size) && NoNewline(ds)
    requires t == "Channel: " + channel + "\n" + "Size: " + size + "\n" + "Status: " + ds + "\n" + "\n" + rest
    ensures Get(ReadHeaders(t).0, "Status") == Some(ds)
    ensures ReadHeaders(t).1 == rest
  {
    var a := "Channel: " + channel + "\n";
    var b := "Size: " + size + "\n";
    var c := "Status: " + ds + "\n";
    ReplyNames();
    MatchNamedLine("Channel", channel);
    MatchNamedLine("Size", size);
    MatchNamedLine("Status", ds);
    ConcatAssoc4(a, "Size: ", size, "\n");
    ConcatAssoc4(a + b, "Status: ", ds, "\n");
    assert t == a + b + c + "\n" + rest;
    ConcatAssoc(a, b, c);
    assert Join([c]) == c;
    assert Join([b, c]) == b + c;
    assert Join([a, b, c]) == a + b + c;
    ReadHeadersOfJoin([a, b, c], rest);
    assert [a, b, c][..2] == [a, b];
  }

  /** The header names the daemon writes, and the prefixes they give. */
  lemma ReplyNames()
    ensures |"Channel"| > 0 && AllLetters("Channel") && "Channel" + ": " == "Channel: "
    ensures |"Size"| > 0 && AllLetters("Size") && "Size" + ": " == "Size: "
    ensures |"Status"| > 0 && AllLetters("Status") && "Status" + ": " == "Status: "
  {
  }

  /**
   * An output frame is relayed whole: its body goes to stdout on channel "o",
   * to stderr on channel "e", nowhere on any other channel, and the socket is
   * left at the next frame.
   */
  lemma OutputFrameRouted(s: Session, w: Wakeup, channel: string, data: string, rest: string)
    requires NoNewline(channel) && FitsLong(|data|)
    requires s.inbound == ReplyFrame(Output(channel, data)) + rest
    requires Socket in w.ready
    ensures Wake(s, w) == Running(s.(inbound := rest,
                                     stdout := s.stdout + (if channel == "o" then data else ""),
                                     stderr := s.stderr + (if channel == "e" then data else "")))
  {
    OutputFrameServed(s, channel, data, rest);
    WakeServesFirstReady(s, w);
  }

  lemma OutputFrameServed(s: Session, channel: string, data: string, rest: string)
    requires NoNewline(channel) && FitsLong(|data|)
    requires s.inbound == ReplyFrame(Output(channel, data)) + rest
    ensures ServiceSocket(s) == Continue(s.(inbound := rest,
                                            stdout := s.stdout + (if channel == "o" then data else ""),
                                            stderr := s.stderr + (if channel == "e" then data else "")))
  {
    OutputFrameDecodes(channel, data, rest, s.inbound);
    assert (data + rest)[..|data|] == data && (data + rest)[|data|..] == rest;
    assert s.stdout + "" == s.stdout && s.stderr + "" == s.stderr;
  }

  /**
   * A block without `Size` reads a body of length `nil.to_i`, that is 0: the
   * bytes after the block stay on the socket and are read as the next block.
   */
  lemma MissingSizeReadsNothing(s: Session, w: Wakeup, channel: string, rest: string)
    requires NoNewline(channel)
    requires s.inbound == "Channel: " + channel + "\n" + "\n" + rest
    requires Socket in w.ready
    ensures Wake(s, w) == Running(s.(inbound := rest))
  {
    ChannelOnlyBlock(s, channel, rest);
    WakeServesFirstReady(s, w);
  }

  /**
   * Any block without `Status` or `Size` reads a body of length `nil.to_i`,
   * that is 0: the block alone is consumed and nothing is relayed, whatever
   * `Channel` says.
   */
  lemma AbsentSizeReadsNothing(s: Session, w: Wakeup)
    requires Get(ReadHeaders(s.inbound).0, "Status").None?
    requires Get(ReadHeaders(s.inbound).0, "Size").None?
    requires Socket in w.ready
    ensures Wake(s, w) == Running(s.(inbound := ReadHeaders(s.inbound).1))
  {
    WakeServesFirstReady(s, w);
    assert Read(ReadHeaders(s.inbound).1, 0) == Bytes("", ReadHeaders(s.inbound).1);
    assert s.stdout + "" == s.stdout && s.stderr + "" == s.stderr;
  }

  lemma ChannelOnlyBlock(s: Session, channel: string, rest: string)
    requires NoNewline(channel)
    requires s.inbound == "Channel: " + channel + "\n" + "\n" + rest
    ensures ServiceSocket(s) == Continue(s.(inbound := rest))
  {
    assert s.inbound == "Channel" + ": " + channel + "\n" + "\n" + rest;
    NamedLineDecodes("Channel", channel, rest, s.inbound);
    var h := ReadHeaders(s.inbound).0;
    assert Get(h, "Status") == None && Get(h, "Size") == None;
    assert Read(rest, 0) == Bytes("", rest);
  }

  /**
   * A `Size` that is negative, or too wide for a `long`, makes `read` raise,
   * which ends the session through the top-level `rescue` with exit status 1.
   */
  lemma UnreadableSizeFails(s: Session, w: Wakeup, n: int, rest: string)
    requires n < 0 || !FitsLong(n)
    requires s.inbound == "Size: " + IntToDecimal(n) + "\n" + "\n" + rest
    requires Socket in w.ready
    ensures Wake(s, w).Failed? && ExitStatus(Wake(s, w)) == 1
  {
    UnreadableSizeServed(s, n, rest);
    WakeServesFirstReady(s, w);
  }

  /**
   * Any block without `Status` whose `Size` reads as a negative number or one
   * too wide for a `long` makes `read` raise, and the session ends with 1.
   */
  lemma UnreadableSizeRaises(s: Session, w: Wakeup, v: string)
    requires Get(ReadHeaders(s.inbound).0, "Status").None?
    requires Get(ReadHeaders(s.inbound).0, "Size") == Some(v)
    requires ToI(v) < 0 || !FitsLong(ToI(v))
    requires Socket in w.ready
    ensures Wake(s, w).Failed? && ExitStatus(Wake(s, w)) == 1
  {
    WakeServesFirstReady(s, w);
  }

  lemma UnreadableSizeServed(s: Session, n: int, rest: string)
    requires n < 0 || !FitsLong(n)
    requires s.inbound == "Size: " + IntToDecimal(n) + "\n" + "\n" + rest
    ensures ServiceSocket(s).Raise?
  {
    DecimalHasNoNewline(n);
    assert s.inbound == "Size: " + IntToDecimal(n) + "\n" + "\n" + "" + rest;
    SizeBlockDecodes(IntToDecimal(n), "", rest, s.inbound);
    ToIReadsLeadingDecimal(n, "");
    assert IntToDecimal(n) + "" == IntToDecimal(n);
  }

  /** Once the daemon has closed the socket, a socket wakeup changes nothing. */
  lemma SocketEofChangesNothing(s: Session, w: Wakeup)
    requires s.inbound == ""
    requires Socket in w.ready
    ensures Wake(s, w) == Running(s)
  {
    assert Gets("") == None;
    WakeServesFirstReady(s, w);
  }

  /**
   * A body cut short by the end of the stream: what arrived is still relayed,
   * nil (nothing arrived) only ends the pass, and in both cases the loop goes
   * on with the socket at its end.
   */
  lemma TruncatedBodyKeepsLooping(s: Session, w: Wakeup, channel: string, n: nat, part: string)
    requires NoNewline(channel)
    requires s.inbound == OutputHeader(channel, n) + part && |part| < n && FitsLong(n)
    requires Socket in w.ready
    ensures Wake(s, w) == Running(s.(inbound := "",
                                     stdout := s.stdout + (if channel == "o" then part else ""),
                                     stderr := s.stderr + (if channel == "e" then part else "")))
  {
    TruncatedBodyServed(s, channel, n, part);
    WakeServesFirstReady(s, w);
  }

  lemma TruncatedBodyServed(s: Session, channel: string, n: nat, part: string)
    requires NoNewline(channel)
    requires s.inbound == OutputHeader(channel, n) + part && |part| < n && FitsLong(n)
    ensures Finish(ServiceSocket(s)) == Running(s.(inbound := "",
                                                  stdout := s.stdout + (if channel == "o" then part else ""),
                                                  stderr := s.stderr + (if channel == "e" then part else "")))
  {
    DecimalHasNoNewline(n);
    assert s.inbound == "Channel: " + channel + "\n" + "Size: " + NatToDecimal(n) + "\n" + "\n" + part + "";
    OutputBlockDecodes(channel, NatToDecimal(n), part, "", s.inbound);
    ToIOfNatToDecimal(n);
    assert part + "" == part;
    assert s.stdout + "" == s.stdout && s.stderr + "" == s.stderr;
  }

  /** At the end of stdin, every stdin wakeup sends the empty frame once more. */
  lemma StdinEofFrameEveryTime(s: Session, w: Wakeup)
    requires s.stdin == ""
    requires Socket !in w.ready && Stdin in w.ready
    ensures Wake(s, w) == Running(s.(outbound := s.outbound + EofFrame))
  {
    WakeServesFirstReady(s, w);
    EofFrameIsEmptyDataFrame();
  }

  // ---------------------------------------------------------------------------
  // Many wakeups

  predicate SocketReady(ws: seq<Wakeup>) {
    forall i :: 0 <= i < |ws| ==> Socket in ws[i].ready
  }

  predicate StdinOnly(ws: seq<Wakeup>) {
    forall i :: 0 <= i < |ws| ==> Socket !in ws[i].ready && Stdin in ws[i].ready
  }

  /** n copies of t. */
  function Repeat(t: string, n: nat): string {
    if n == 0 then "" else t + Repeat(t, n - 1)
  }

  /** The bodies of the replies on channel ch, in order. */
  function Delivered(rs: seq<Reply>, ch: string): string {
    if |rs| == 0 then ""
    else (if rs[0].Output? && rs[0].channel == ch then rs[0].data else "") + Delivered(rs[1..], ch)
  }

  /** Appending the first reply's share and then the rest's is appending the whole share. */
  lemma DeliveredStep(acc: string, rs: seq<Reply>, ch: string)
    requires |rs| > 0 && rs[0].Output?
    ensures acc + (if rs[0].channel == ch then rs[0].data else "") + Delivered(rs[1..], ch) == acc + Delivered(rs, ch)
  {
    var piece := if rs[0].channel == ch then rs[0].data else "";
    assert Delivered(rs, ch) == piece + Delivered(rs[1..], ch);
  }

  lemma ReplyStreamFirst(rs: seq<Reply>, tail: string)
    requires |rs| > 0 && rs[0].Output?
    ensures ReplyStream(rs) + tail == ReplyFrame(Output(rs[0].channel, rs[0].data)) + (ReplyStream(rs[1..]) + tail)
  {
    assert ReplyStream(rs) == ReplyFrame(rs[0]) + ReplyStream(rs[1..]);
    assert rs[0] == Output(rs[0].channel, rs[0].data);
    ConcatAssoc(ReplyFrame(rs[0]), ReplyStream(rs[1..]), tail);
  }

  /** The data frames of the chunks, in order. */
  function DataFrames(chunks: seq<string>): string {
    if |chunks| == 0 then "" else DataFrame(chunks[0]) + DataFrames(chunks[1..])
  }

  /** One wakeup that leaves the session running hands the rest of the run to the new state. */
  lemma RunStep(s: Session, ws: seq<Wakeup>, s1: Session)
    requires |ws| > 0 && Wake(s, ws[0]) == Running(s1)
    ensures Run(s, ws) == Run(s1, ws[1..])
  {
  }

  /**
   * Splitting the wakeups in two: the second part starts from where the first
   * left the session, and does nothing once the session has ended.
   */
  lemma {:induction false} RunAppend(s: Session, ws1: seq<Wakeup>, ws2: seq<Wakeup>)
    ensures Run(s, ws1 + ws2) == (if Run(s, ws1).Running? then Run(Run(s, ws1).s, ws2) else Run(s, ws1))
    decreases |ws1|
  {
    if |ws1| == 0 {
      assert ws1 + ws2 == ws2;
    } else {
      assert (ws1 + ws2)[0] == ws1[0];
      assert (ws1 + ws2)[1..] == ws1[1..] + ws2;
      match Wake(s, ws1[0])
      case Running(s') =>
        RunAppend(s', ws1[1..], ws2);
      case _ =>
    }
  }

  /**
   * Once the daemon has closed the socket the client never stops: every
   * socket wakeup reads an empty block and an empty body and loops again.
   */
  lemma {:induction false} SocketEofSpins(s: Session, ws: seq<Wakeup>)
    requires s.inbound == ""
    requires SocketReady(ws)
    ensures Run(s, ws) == Running(s)
    decreases |ws|
  {
    if |ws| > 0 {
      SocketEofChangesNothing(s, ws[0]);
      SocketEofSpins(s, ws[1..]);
    }
  }

  /** However many wakeups it takes, a session that exits does so with a status that fits an `int`. */
  lemma {:induction false} RunExitsWithInt(s: Session, ws: seq<Wakeup>)
    ensures Run(s, ws).Exited? ==> FitsInt(Run(s, ws).code)
    decreases |ws|
  {
    if |ws| > 0 {
      WakeExitsWithInt(s, ws[0]);
      match Wake(s, ws[0])
      case Running(s') =>
        RunExitsWithInt(s', ws[1..]);
      case _ =>
    }
  }

  /** At the end of stdin, n stdin wakeups send the empty frame n times. */
  lemma {:induction false} StdinEofFrames(s: Session, ws: seq<Wakeup>)
    requires s.stdin == ""
    requires StdinOnly(ws)
    ensures Run(s, ws) == Running(s.(outbound := s.outbound + Repeat(EofFrame, |ws|)))
    decreases |ws|
  {
    if |ws| > 0 {
      StdinEofFrameEveryTime(s, ws[0]);
      var s1 := s.(outbound := s.outbound + EofFrame);
      RunStep(s, ws, s1);
      StdinEofFrames(s1, ws[1..]);
      RepeatStep(s.outbound, EofFrame, |ws|);
    }
  }

  lemma RepeatStep(acc: string, t: string, n: nat)
    requires n > 0
    ensures acc + t + Repeat(t, n - 1) == acc + Repeat(t, n)
  {
    assert Repeat(t, n) == t + Repeat(t, n - 1);
  }

  /**
   * A run of output frames, one per socket wakeup, appends the "o" bodies to
   * stdout and the "e" bodies to stderr, each in the order the daemon sent
   * them, and leaves the socket after the last frame.
   */
  lemma {:induction false} RunRelaysReplies(s: Session, rs: seq<Reply>, ws: seq<Wakeup>, tail: string)
    requires forall i :: 0 <= i < |rs| ==> rs[i].Output? && NoNewline(rs[i].channel) && FitsLong(|rs[i].data|)
    requires s.inbound == ReplyStream(rs) + tail
    requires |ws| == |rs| && SocketReady(ws)
    ensures Run(s, ws) == Running(s.(inbound := tail,
                                     stdout := s.stdout + Delivered(rs, "o"),
                                     stderr := s.stderr + Delivered(rs, "e")))
    decreases |rs|
  {
    if |rs| == 0 {
      assert s.stdout + "" == s.stdout && s.stderr + "" == s.stderr;
    } else {
      var r := rs[0];
      var more := ReplyStream(rs[1..]) + tail;
      ReplyStreamFirst(rs, tail);
      OutputFrameRouted(s, ws[0], r.channel, r.data, more);
      var out := if r.channel == "o" then r.data else "";
      var err := if r.channel == "e" then r.data else "";
      var s1 := s.(inbound := more, stdout := s.stdout + out, stderr := s.stderr + err);
      RunStep(s, ws, s1);
      RunRelaysReplies(s1, rs[1..], ws[1..], tail);
      DeliveredStep(s.stdout, rs, "o");
      DeliveredStep(s.stderr, rs, "e");
    }
  }

  /**
   * Output frames followed by a `Status` frame: every body is relayed and the
   * session then ends, whatever wakeups would have come after, with that
   * status when it fits an `int` and through the `rescue` otherwise.
   */
  lemma RunEndsAtStatus(s: Session, rs: seq<Reply>, code: int, more: string, ws: seq<Wakeup>)
    requires forall i :: 0 <= i < |rs| ==> rs[i].Output? && NoNewline(rs[i].channel) && FitsLong(|rs[i].data|)
    requires s.inbound == ReplyStream(rs) + ReplyFrame(Status(code)) + more
    requires |ws| > |rs| && SocketReady(ws)
    ensures FitsInt(code) ==>
      Run(s, ws) == Exited(code, s.(inbound := more,
                                    stdout := s.stdout + Delivered(rs, "o"),
                                    stderr := s.stderr + Delivered(rs, "e")))
    ensures !FitsInt(code) ==>
      Run(s, ws) == Failed(s.(inbound := more,
                              stdout := s.stdout + Delivered(rs, "o"),
                              stderr := s.stderr + Delivered(rs, "e")))
  {
    var k := |rs|;
    var tail := ReplyFrame(Status(code)) + more;
    ConcatAssoc(ReplyStream(rs), ReplyFrame(Status(code)), more);
    RunRelaysReplies(s, rs, ws[..k], tail);
    var s1 := s.(inbound := tail, stdout := s.stdout + Delivered(rs, "o"), stderr := s.stderr + Delivered(rs, "e"));
    StatusFrameEndsSession(s1, ws[k], code, more);
    RunThenEnds(s, s1, ws, k);
  }

  /** A run that reaches a wakeup that ends the session ends there. */
  lemma RunThenEnds(s: Session, s1: Session, ws: seq<Wakeup>, k: nat)
    requires k < |ws| && Run(s, ws[..k]) == Running(s1)
    requires !Wake(s1, ws[k]).Running?
    ensures Run(s, ws) == Wake(s1, ws[k])
  {
    RunEnds(s1, ws[k..]);
    assert ws == ws[..k] + ws[k..];
    RunAppend(s, ws[..k], ws[k..]);
  }

  /** A wakeup that ends the session ends the run. */
  lemma RunEnds(s: Session, ws: seq<Wakeup>)
    requires |ws| > 0 && !Wake(s, ws[0]).Running?
    ensures Run(s, ws) == Wake(s, ws[0])
  {
  }

  /**
   * A run of stdin wakeups uploads stdin in order: the chunks sent, one per
   * wakeup and each at most 512 bytes and at most what the pipe held, join up
   * to the part of stdin consumed; a chunk is empty, which makes its frame the
   * EOF frame, exactly when everything before it already covers stdin. The
   * socket side and the local output are untouched.
   */
  lemma {:induction false} RunUploadsStdin(s: Session, ws: seq<Wakeup>) returns (chunks: seq<string>)
    requires StdinOnly(ws)
    ensures Run(s, ws).Running?
    ensures Run(s, ws).s == s.(stdin := Run(s, ws).s.stdin, outbound := s.outbound + DataFrames(chunks))
    ensures |chunks| == |ws|
    ensures Join(chunks) + Run(s, ws).s.stdin == s.stdin
    ensures forall i :: 0 <= i < |ws| ==> |chunks[i]| <= ChunkSize && |chunks[i]| <= ws[i].avail
    ensures forall i :: 0 <= i < |ws| ==> (chunks[i] == "" <==> Join(chunks[..i]) == s.stdin)
    ensures forall i :: 0 <= i < |ws| ==>
      |chunks[i]| == ChunkSize || |chunks[i]| == ws[i].avail || Join(chunks[..i + 1]) == s.stdin
    decreases |ws|
  {
    if |ws| == 0 {
      chunks := [];
      assert s.outbound + "" == s.outbound;
    } else {
      WakeServesFirstReady(s, ws[0]);
      var s1 := ServiceStdin(s, ws[0].avail).s;
      var c0 := s.stdin[..|s.stdin| - |s1.stdin|];
      RunStep(s, ws, s1);
      var rest := RunUploadsStdin(s1, ws[1..]);
      chunks := [c0] + rest;
      var fin := Run(s1, ws[1..]).s;
      assert chunks[1..] == rest;
      ConcatAssoc(c0, Join(rest), fin.stdin);
      ConcatAssoc(s.outbound, DataFrame(c0), DataFrames(rest));
      UploadOrder(s.stdin, c0, s1.stdin, rest);
      UploadFull(s.stdin, c0, s1.stdin, rest, ws);
    }
  }

  /** The maximality clause of RunUploadsStdin, carried over one more chunk. */
  lemma UploadFull(stdin: string, c0: string, stdin1: string, rest: seq<string>, ws: seq<Wakeup>)
    requires stdin == c0 + stdin1 && |ws| == |rest| + 1
    requires |c0| == ChunkSize || |c0| == ws[0].avail || stdin1 == ""
    requires forall i :: 0 <= i < |rest| ==>
      |rest[i]| == ChunkSize || |rest[i]| == ws[1..][i].avail || Join(rest[..i + 1]) == stdin1
    ensures forall i :: 0 <= i < |ws| ==>
      |([c0] + rest)[i]| == ChunkSize || |([c0] + rest)[i]| == ws[i].avail || Join(([c0] + rest)[..i + 1]) == stdin
  {
    var chunks := [c0] + rest;
    forall i | 0 <= i < |ws|
      ensures |chunks[i]| == ChunkSize || |chunks[i]| == ws[i].avail || Join(chunks[..i + 1]) == stdin
    {
      if i == 0 {
        assert chunks[..1] == [c0];
        assert Join([c0]) == c0 + Join([c0][1..]);
        assert [c0][1..] == [];
        assert c0 + "" == c0;
        assert stdin1 == "" ==> stdin == c0;
      } else {
        assert chunks[i] == rest[i - 1] && ws[1..][i - 1] == ws[i];
        assert chunks[..i + 1] == [c0] + rest[..i];
        assert ([c0] + rest[..i])[1..] == rest[..i];
        assert Join(chunks[..i + 1]) == c0 + Join(rest[..i]);
      }
    }
  }

  /** The emptiness clause of RunUploadsStdin, carried over one more chunk. */
  lemma UploadOrder(stdin: string, c0: string, stdin1: string, rest: seq<string>)
    requires stdin == c0 + stdin1
    requires c0 == "" <==> stdin == ""
    requires forall i :: 0 <= i < |rest| ==> (rest[i] == "" <==> Join(rest[..i]) == stdin1)
    ensures forall i :: 0 <= i < |rest| + 1 ==> (([c0] + rest)[i] == "" <==> Join(([c0] + rest)[..i]) == stdin)
  {
    var chunks := [c0] + rest;
    forall i | 0 <= i < |chunks|
      ensures chunks[i] == "" <==> Join(chunks[..i]) == stdin
    {
      if i == 0 {
        assert chunks[..0] == [];
      } else {
        assert chunks[..i] == [c0] + rest[..i - 1];
        assert ([c0] + rest[..i - 1])[1..] == rest[..i - 1];
        assert Join(chunks[..i]) == c0 + Join(rest[..i - 1]);
        assert c0 + Join(rest[..i - 1]) == c0 + stdin1 <==> Join(rest[..i - 1]) == stdin1 by {
          if c0 + Join(rest[..i - 1]) == c0 + stdin1 {
            assert Join(rest[..i - 1]) == (c0 + Join(rest[..i - 1]))[|c0|..];
          }
        }
      }
    }
  }

  // ---------------------------------------------------------------------------
  // Whole sessions

  /**
   * A daemon that writes `out` to stdout, then `err` to stderr, then exits
   * with `code`: three socket wakeups relay both texts and end the process,
   * whose exit status is the low byte of the code, or 1 when the code does not
   * fit an `int`.
   */
  lemma OutputThenExit(cwd: string, args: seq<string>, cookie: string, stdin: string,
                       out: string, err: string, code: int, ws: seq<Wakeup>)
    requires FitsLong(|out|) && FitsLong(|err|)
    requires |ws| == 3 && SocketReady(ws)
    ensures
      var s := Start(cwd, args, cookie, ReplyFrame(Output("o", out)) + ReplyFrame(Output("e", err)) + ReplyFrame(Status(code)), stdin);
      Run(s, ws).s == s.(inbound := "", stdout := out, stderr := err) &&
      (FitsInt(code) ==> Run(s, ws).Exited? && Run(s, ws).code == code && ExitStatus(Run(s, ws)) == code % 256) &&
      (!FitsInt(code) ==> Run(s, ws).Failed? && ExitStatus(Run(s, ws)) == 1)
  {
    var s := Start(cwd, args, cookie, ReplyFrame(Output("o", out)) + ReplyFrame(Output("e", err)) + ReplyFrame(Status(code)), stdin);
    OutErrStatus(s, out, err, code, ws);
    assert "" + out == out && "" + err == err;
  }

  lemma OutErrStatus(s: Session, out: string, err: string, code: int, ws: seq<Wakeup>)
    requires FitsLong(|out|) && FitsLong(|err|)
    requires s.inbound == ReplyFrame(Output("o", out)) + ReplyFrame(Output("e", err)) + ReplyFrame(Status(code))
    requires |ws| == 3 && SocketReady(ws)
    ensures !Run(s, ws).Running?
    ensures Run(s, ws).s == s.(inbound := "", stdout := s.stdout + out, stderr := s.stderr + err)
    ensures FitsInt(code) ==> Run(s, ws) == Exited(code, Run(s, ws).s)
    ensures !FitsInt(code) ==> Run(s, ws).Failed?
  {
    var rs := [Output("o", out), Output("e", err)];
    TwoReplies(rs[0], rs[1]);
    assert s.inbound == ReplyStream(rs) + ReplyFrame(Status(code)) + "";
    TwoDelivered(out, err);
    RunEndsAtStatus(s, rs, code, "", ws);
  }

  lemma TwoReplies(r1: Reply, r2: Reply)
    ensures ReplyStream([r1, r2]) == ReplyFrame(r1) + ReplyFrame(r2)
  {
    assert [r1, r2][1..] == [r2] && [r2][1..] == [];
    assert ReplyStream([r2]) == ReplyFrame(r2) + "";
    assert ReplyFrame(r2) + "" == ReplyFrame(r2);
  }

  lemma TwoDelivered(out: string, err: string)
    ensures Delivered([Output("o", out), Output("e", err)], "o") == out
    ensures Delivered([Output("o", out), Output("e", err)], "e") == err
  {
    var rs := [Output("o", out), Output("e", err)];
    assert rs[1..] == [Output("e", err)] && rs[1..][1..] == [];
    assert Delivered(rs[1..], "o") == "" + "";
    assert Delivered(rs[1..], "e") == err + "";
    assert out + ("" + "") == out && "" + (err + "") == err;
  }

  /**
   * Piping a short input into the client: the first stdin wakeup sends it as
   * one data frame, and every later one sends the EOF frame.
   */
  lemma PipedInput(cwd: string, args: seq<string>, cookie: string, data: string, w: Wakeup, ws: seq<Wakeup>)
    requires 0 < |data| <= ChunkSize && |data| <= w.avail
    requires StdinOnly([w] + ws)
    ensures
      var s := Start(cwd, args, cookie, "", data);
      Run(s, [w] + ws) ==
        Running(s.(stdin := "", outbound := Handshake(cwd, args, cookie) + DataFrame(data) + Repeat(EofFrame, |ws|)))
  {
    var s := Start(cwd, args, cookie, "", data);
    var all := [w] + ws;
    assert all[0] == w && all[1..] == ws;
    WakeServesFirstReady(s, w);
    var s1 := s.(stdin := "", outbound := s.outbound + DataFrame(data));
    assert data[..|data|] == data && data[|data|..] == "";
    assert Wake(s, w) == Running(s1);
    RunStep(s, all, s1);
    StdinEofFrames(s1, ws);
  }
}
